=== FILE: README.md ===
# HIPS rule engine — a Dafny model

HIPS is a Linux kernel module with a user-space control tool. The module
keeps three lists of rules, one per category: program execution, DNS queries
and network connections. Each rule has a target pattern and an action: block,
allow or log. Three hooks match the event they see against the list for
their category and turn the first matching rule's action into a verdict.
Rules are meant to reach the module in two ways:
- as `category|action|priority|target[|description]` lines written to a proc
  file;
- through the `hipsctl` tool, whose `add-rule` and `del-rule` commands issue
  ioctls.

The proc-file write handler `hips_rules_write` is modelled even though the
code never registers it. `/proc/hips/rules` is created with no file
operations (`src/hips_main.c:86`), and the only reference to
`hips_rules_write` is the unused `hips_rules_fops` table
(`src/hips_procfs.c:12-19`). So no write reaches the handler as the code
stands. The model describes what the handler does once it is wired up.

This project models four parts of the source as pure functions over
immutable values:
- the rule store and its matcher (`src/hips_config.c`);
- the proc-file rule parser (`src/hips_procfs.c`);
- the verdict logic of the three hooks (`src/hips_hooks.c`);
- the argument handling and command dispatch of `hipsctl` (`tools/hipsctl.c`).

| file | module | contents |
|---|---|---|
| `hips_types.dfy` | `HipsTypes` | `struct hips_rule`, the category, action and status constants, 32-bit words |
| `ctext.dfy` | `CText` | the C string operations used: NUL-terminated view, `strncpy` into a fixed buffer, `strtok_r`, decimal digits |
| `rule_store.dfy` | `RuleStore` | the three lists and id counter; add, delete, get, match, pattern, cleanup, load, reload |
| `proc_rules.dfy` | `ProcRules` | `hips_rules_write`, `hips_parse_rules_command`, `hips_parse_rule_line`, and the inverse rendering of a rule as a line |
| `hooks.dfy` | `Hooks` | the exec, DNS and network hooks and the target producers they call |
| `hipsctl.dfy` | `HipsCtl` | `sscanf("%u")`, `add_rule`, `del_rule`, the command table of `main` |

The model treats each operation as one atomic step from a `Store` to a
`Store`. The source does not make each call atomic. The configuration
spinlock guards the list updates and walks. It does not cover the id counter
bump in `hips_add_rule` (`src/hips_config.c:24-26`). `hips_del_rule` waits
for the reference count after it has unlocked (`src/hips_config.c:85-90`).
The hooks log and count after the match has released the lock. Interleavings
of these steps are not modelled. Where the module writes into a caller's
record, such as the assigned id or the matched rule copy, the model returns
that record as part of the result.

Strings are byte strings. Each `char` of a Dafny `string` stands for one
byte of the C string, and every length and buffer limit counts these bytes.
The Chinese details texts the hooks log are the one exception. The model
treats them as fixed labels that are stored unchanged and never measured.

Points where the code does less than its comments and messages announce.
The model follows the code in each case:
- `hips_match_pattern` announces `*`/`?` wildcards and prefix matching. Any
  pattern containing `*` or `?` is rejected before the trailing-`*` test, so
  a pattern matches exactly when it equals the string (`MatchPattern`,
  `PrefixBranchUnreachable`).
- Matching takes a reference on the matched entry, and nothing gives it
  back. `hips_del_rule` waits for the count to fall to 1. With the model's
  unbounded count, deleting a rule that has ever matched never returns
  (`DeleteAfterMatchNeverReturns`). In the source the count is a 32-bit
  `atomic_t`, which only returns to a value of at most 1 through signed
  overflow.
- A non-zero id is stored as given, so two rules can share an id. Lookup and
  delete then act on the first one in exec, dns, network order.
- A rule with id 0 and an invalid category is rejected, but only after it
  has consumed an id. A rule with a non-zero id never touches the counter.
- `hips_parse_dns_query` always yields `example.com`. `hips_parse_network_addr`
  never fills in the port. `hips_parse_config` accepts anything and adds no
  rules.

## Model

| member | source | states |
|---|---|---|
| CText.CStr | src/hips_procfs.c:199-205 | the text a NUL-terminated copy of the buffer holds: the longest NUL-free prefix, which stops at the buffer's end or at a NUL |
| CText.Bounded | src/hips_procfs.c:302-303 | `strncpy` into a `size`-byte field with a forced terminator keeps the first `size - 1` characters, and all of a shorter string |
| CText.Tokens | src/hips_procfs.c:208-216 | `strtok_r` yields only non-empty tokens free of the delimiter |
| CText.TokensOfJoinDropsEmpty | src/hips_procfs.c:208-216 | empty fields collapse: splitting fields joined with a delimiter gives back exactly the non-empty ones, in order, so leading, trailing and doubled delimiters produce no token |
| CText.TokensOfJoin | src/hips_procfs.c:247-312 | splitting fields joined with a delimiter gives the fields back, provided each is non-empty and free of the delimiter |
| CText.DecimalRoundTrip | src/hips_procfs.c:290 | reading back the decimal rendering of a number gives the number |
| CText.DecimalNoLeadingZero | src/hips_procfs.c:290 | a rendered number starts with `0` only when it is 0 |
| RuleStore.NextId | src/hips_config.c:4 | `atomic_inc_return` on the counter: one more, and back to 0 after 2^32 - 1 |
| RuleStore.AddRule | src/hips_config.c:7-61 | a zero id is replaced by the next counter value, before the category is checked. Success happens exactly for the three categories. It appends the rule with reference count 1 to its own category's list and leaves the other lists alone. An invalid category gives `HIPS_ERROR_INVALID` with the lists unchanged |
| RuleStore.AddPreservesWf | src/hips_config.c:33-54 | adding keeps every entry in its own category's list with a count of at least 1, and grows the store by exactly one rule on success |
| RuleStore.FirstAutoIdIsOne | src/hips_config.c:4-26 | the store at load is empty and well formed, and the first rule added with id 0 gets id 1 |
| RuleStore.AutoIdIncreases | src/hips_config.c:24-26 | before the counter wraps, an auto-assigned id is the previous counter plus one, at least 1 |
| RuleStore.MatchPattern | src/hips_config.c:180-209 | the pattern matches exactly when it equals the string. It is defined whenever the pattern is non-empty |
| RuleStore.PrefixBranchUnreachable | src/hips_config.c:185-208 | no call of the matcher reaches the trailing-`*` prefix test, and the result is true exactly when the call leaves through the equality test |
| RuleStore.StarPatternMatchesOnlyItself | src/hips_config.c:198-206 | a pattern `p*` does not match a longer string that starts with `p` |
| RuleStore.ScanFrom | src/hips_config.c:164-173 | the list walk stops at the first entry of the category whose pattern matches, and skips only entries that do not match |
| RuleStore.ScanDefined | src/hips_config.c:164-166 | the walk never reaches an undefined comparison when no rule of the category has an empty pattern |
| RuleStore.MatchRule | src/hips_config.c:137-177 | an unknown category gives `HIPS_ERROR_INVALID` with no change. Otherwise success happens exactly when some entry matches. The result is the first matching entry in insertion order, and only that entry's reference count goes up by one. A miss changes nothing |
| RuleStore.MatchPreservesWf | src/hips_config.c:164-172 | matching keeps the store invariant and the number of rules |
| RuleStore.FirstInsertedWins | src/hips_config.c:164-171 | adding a rule does not change which rule an existing match returns: earlier rules win |
| RuleStore.LocateId | src/hips_config.c:122-130 | the lists are searched exec, then dns, then network, each in insertion order. The first entry with the id is found, or none when no list holds the id |
| RuleStore.GetRule | src/hips_config.c:105-134 | the result is absent exactly when no rule has the id. Otherwise it is a copy of the first rule with that id in scan order |
| RuleStore.GetRuleCode | src/hips_config.c:122-133 | `hips_get_rule` returns `HIPS_SUCCESS` exactly when some rule has the id, and `HIPS_ERROR_NOT_FOUND` exactly when none has |
| RuleStore.DelRule | src/hips_config.c:64-102 | the result is absent exactly when no rule has the id, and then nothing changes. Otherwise exactly the first entry with the id is unlinked. The call returns when that entry's count is at most 1 and never returns otherwise |
| RuleStore.DelCode | src/hips_config.c:80-101 | a `hips_del_rule` call that returns gives `HIPS_SUCCESS` exactly when some rule had the id, and `HIPS_ERROR_NOT_FOUND` exactly when none had |
| RuleStore.DelPreservesWf | src/hips_config.c:81-96 | deleting keeps the store invariant and removes exactly one rule when the id exists |
| RuleStore.DeleteAfterMatchNeverReturns | src/hips_config.c:88-90 | deleting a rule that has just matched never returns |
| RuleStore.AddThenGet | src/hips_config.c:105-134 | a rule added with id 0 is found by the id it was given, provided that id was free |
| RuleStore.CleanupRules | src/hips_config.c:321-347 | every list is emptied, whatever the reference counts, and the id counter is kept |
| RuleStore.ParseConfig | src/hips_config.c:350-356 | the parser accepts any data and changes nothing |
| RuleStore.LoadConfig | src/hips_config.c:212-258 | an open failure gives `HIPS_ERROR_INVALID` and a read failure gives the negative errno. A read file is parsed. Success happens exactly when the file was read |
| RuleStore.ReloadConfig | src/hips_config.c:301-318 | after a reload the store is empty and the id counter is kept, whatever the load reports. Success happens exactly when the file was read |
| ProcRules.ProcCategory | src/hips_procfs.c:254-263 | a word is accepted exactly when it is the keyword of a valid category, and it gives that category |
| ProcRules.ProcAction | src/hips_procfs.c:272-281 | a word is accepted exactly when it is the keyword of a valid action, and it gives that action |
| ProcRules.KStrToU32 | src/hips_procfs.c:290 | an accepted priority starts with `+` or a digit and contains only digits, `+` and newlines. The exact accepted form and the value are stated by `KStrToU32Exact` |
| ProcRules.KStrToU32Exact | src/hips_procfs.c:290 | a priority is accepted exactly when it is an optional `+`, a non-empty run of digits and an optional newline, with a value below 2^32. The result is the digits' value |
| ProcRules.KStrToU32OfDecimal | src/hips_procfs.c:290 | every 32-bit number written in decimal is accepted with its own value |
| ProcRules.KStrToU32RefusesMinus | src/hips_procfs.c:290 | a priority with a minus sign is refused |
| ProcRules.SkipBlanks | src/hips_procfs.c:235-238 | only leading spaces and tabs are removed, and the rest starts with neither |
| ProcRules.ParseFields | src/hips_procfs.c:247-315 | a rule is produced exactly when there are at least four fields, the first three name a category, an action and a 32-bit priority. The rule has id 0, and its category, action and priority are the values those three fields name. Its target is the fourth field cut to 255 characters. Its description is the fifth field cut to 511 characters, or empty when there is no fifth field. Otherwise the line is an error |
| ProcRules.ParseLine | src/hips_procfs.c:235-315 | a blank line or a `#` comment is skipped, and any other line gives exactly what its `|`-separated fields, after leading blanks, give. A parsed rule has id 0, a non-empty target and fields that fit |
| ProcRules.ExtraFieldsIgnored | src/hips_procfs.c:306-316 | fields after the fifth do not change the result |
| ProcRules.ParseRuleLine | src/hips_procfs.c:223-321 | a skipped line returns 0 and changes nothing. A bad line returns `-EINVAL` and changes nothing. A parsed line is added with a fresh id at the tail of its category's list |
| ProcRules.FieldsOfRuleParse | src/hips_procfs.c:247-315 | the fields a rule is rendered as parse back to that rule with id 0 |
| ProcRules.ParseRuleLineRoundTrip | src/hips_procfs.c:223-316 | the line a rule is rendered as parses back to that rule with id 0 |
| ProcRules.FirstBad | src/hips_procfs.c:209-214 | the position of the first line that fails to parse: every earlier line parses |
| ProcRules.ApplyLines | src/hips_procfs.c:207-216 | the loop returns 0 or `-EINVAL`, and an empty list of lines never fails |
| ProcRules.ApplyLinesCode | src/hips_procfs.c:209-219 | the loop returns `-EINVAL` exactly when some line is bad, and 0 otherwise |
| ProcRules.ApplyLinesStopsAtFirstBad | src/hips_procfs.c:210-213 | lines after the first bad one have no effect |
| ProcRules.ApplyLinesGrows | src/hips_procfs.c:209-216 | nothing is rolled back: every list only grows at its tail, by one rule per rule line before the first bad line |
| ProcRules.ApplyLinesCounter | src/hips_procfs.c:209-216 | the id counter advances once per rule line applied, modulo 2^32 |
| ProcRules.ApplyLinesCounterAfter | src/hips_procfs.c:209-216 | the counter after a write is the counter moved once for each rule line before the first bad line |
| ProcRules.CounterAfterAdvance | src/hips_procfs.c:209-216 | moving the counter once per rule line up to the first bad line is a wrapping advance by the number of those rule lines |
| ProcRules.ParseRuleLineKeepsPatternsNonEmpty | src/hips_procfs.c:296-303 | one line never adds a rule with an empty pattern |
| ProcRules.ApplyLinesKeepsPatternsNonEmpty | src/hips_procfs.c:296-303 | rules added through the proc file never have an empty pattern, so matching stays defined |
| ProcRules.ApplyLinesKeepsWf | src/hips_procfs.c:209-216 | a whole write keeps the store invariant |
| ProcRules.ParseRulesCommand | src/hips_procfs.c:193-220 | the command returns 0 or `-EINVAL`. It returns 0 exactly when every newline-separated line of the buffer's C string parses or is skipped |
| ProcRules.RulesWrite | src/hips_procfs.c:122-147 | a write longer than 4096 bytes is refused with `-EINVAL` and changes nothing. Any other write is parsed. Its result is the full byte count exactly when no line of the buffer's C string fails, and `-EINVAL` otherwise |
| Hooks.CountBlock | src/hips_common.h:104 | one blocked event raises the counter of its own category by one and leaves the others alone |
| Hooks.Decide | src/hips_hooks.c:89-106 | with no match, the event is allowed and nothing changes. Otherwise the first matching rule's reference is taken. The event is denied exactly when that rule blocks. A block logs one event and counts one block. A log action logs one event and counts nothing. Any other action does neither |
| Hooks.ExecHook | src/hips_hooks.c:71-109 | a disabled module allows with 0 and changes nothing. Otherwise the matching procedure decides between 0 and `-EPERM` |
| Hooks.DnsFilter | src/hips_hooks.c:124-161 | the branch chain lets a packet through exactly when it is an IPv4 packet, or an IPv6 packet with IPv6 built in, carried over UDP or TCP to port 53 |
| Hooks.ParseDnsQuery | src/hips_hooks.c:233-240 | the domain is always `example.com` |
| Hooks.DnsHook | src/hips_hooks.c:112-189 | a disabled module or a packet that is not a DNS query is accepted with no change. Otherwise the matching procedure decides between `NF_DROP` and `NF_ACCEPT` on the parsed domain |
| Hooks.ParseNetworkAddr | src/hips_hooks.c:243-263 | an address is produced exactly for IPv4, or for IPv6 when it is built in. Its port is always 0 |
| Hooks.FormatNetworkAddr | src/hips_hooks.c:266-279 | the text always fits the 64-byte buffer. A known family gives `address:port` whenever that text fits in 63 bytes, which every `%pI4` or `%pI6` rendering does. Any other family gives `unknown` |
| Hooks.NetworkTargetShape | src/hips_hooks.c:243-263 | the network target is always the address followed by `:0`, never `unknown` |
| Hooks.NetworkHook | src/hips_hooks.c:192-230 | a disabled module or an unparsable packet is accepted with no change. Otherwise the matching procedure decides on the formatted address |
| Hooks.AddedBlockRuleDeniesExec | src/hips_config.c:7-61 | an exec block rule added with id 0, with no earlier rule for the same path, denies that path. One event with the new id is logged and one exec block is counted |
| Hooks.DisabledAllowsAll | src/hips_hooks.c:78-80 | with the module disabled, every hook allows and changes nothing |
| HipsCtl.SkipSpace | tools/hipsctl.c:269 | every removed character is C white space, only a prefix is removed, and the rest starts with none |
| HipsCtl.ScannedValue | tools/hipsctl.c:269 | a number below 2^32 written without a sign is stored unchanged |
| HipsCtl.ScanNumber | tools/hipsctl.c:269 | after the white space, `%u` succeeds exactly when the text starts with a digit, or with a sign followed by a digit |
| HipsCtl.ScanUnsigned | tools/hipsctl.c:269 | `%u` succeeds exactly when, after white space, there is a digit, or a sign followed by a digit |
| HipsCtl.ScanNumberExact | tools/hipsctl.c:269 | for every optional sign, non-empty digit run (leading zeros allowed) and text that does not continue the run, `%u` stores the digits' value, negated for `-`, as `ScannedValue` converts it |
| HipsCtl.ScanUnsignedExact | tools/hipsctl.c:317 | the same with any leading white space: this is the id `del-rule` sends and the priority `add-rule` stores for every numeral `%u` accepts |
| HipsCtl.ScannedMinusOne | tools/hipsctl.c:317 | the numeral `-1` is stored as 4294967295, the largest 32-bit value, so `del-rule -1` sends that id |
| HipsCtl.ScanUnsignedOfDecimal | tools/hipsctl.c:269 | every 32-bit number written in decimal is read back with its own value, whatever non-digit text follows |
| HipsCtl.CliCategory | tools/hipsctl.c:245-254 | a word is accepted exactly when it is the keyword of a valid category, and it gives that category |
| HipsCtl.CliAction | tools/hipsctl.c:257-266 | a word is accepted exactly when it is the keyword of a valid action, and it gives that action |
| HipsCtl.KeywordTablesAgree | tools/hipsctl.c:245-266 | the tool accepts the same category and action words as the proc file, with the same meanings |
| HipsCtl.ParseAddRuleArgs | tools/hipsctl.c:233-287 | fewer than five arguments are refused. A rule is produced exactly when the category, action and priority are accepted. The rule has id 0, the target cut to 255 characters and the description cut to 511 characters |
| HipsCtl.AddRuleCommand | tools/hipsctl.c:233-304 | the command returns 0 or -1. It returns 0 exactly when the arguments parse and the ioctl succeeds. The rule is sent exactly when the arguments parse and the device opens, and it is sent with id 0 |
| HipsCtl.DelRuleCommand | tools/hipsctl.c:307-337 | the command returns 0 or -1. A missing or unreadable id is refused before the device is opened. The id read is sent exactly when the device opens. The command returns 0 exactly when the ioctl succeeds |
| HipsCtl.LookupCommand | tools/hipsctl.c:389-410 | a found command is the one whose name is the word, and no command is found only when the word names none |
| HipsCtl.LookupIsCommandWord | tools/hipsctl.c:389-410 | a word selects a command exactly when it is that command's name |
| HipsCtl.MainDispatch | tools/hipsctl.c:380-411 | the tool exits with 1 exactly when the command is missing or unknown. Otherwise the named command runs on the arguments after it |
| HipsCtl.AddRuleArgsRoundTrip | tools/hipsctl.c:233-287 | the `add-rule` arguments that name a rule's category, action, decimal priority, target and description are read back as that rule with id 0 |
| HipsCtl.KeywordArgsRead | tools/hipsctl.c:245-266 | the words the proc-file rendering uses for a category and an action are accepted by the tool with the same values |
| HipsCtl.ScanUnsignedOfWord | tools/hipsctl.c:317 | an id written in decimal is read back with its own value |
| HipsCtl.FrontEndsAgree | tools/hipsctl.c:233-287 | a rule typed as `add-rule` arguments and the same rule written as a proc-file line give the same rule with id 0 |
| HipsCtl.TrailingTextSplitsReaders | tools/hipsctl.c:269 | a priority with trailing text is accepted by the tool with the number's value and refused by the proc file |
| HipsCtl.LeadingSpaceSplitsReaders | tools/hipsctl.c:269 | a priority with leading white space is accepted by the tool and refused by the proc file |

## Left out

- Locking, `schedule()` and concurrency. Each operation is one atomic step by the model's choice. The source leaves the counter bump, the wait in `hips_del_rule` and the hooks' logging outside the lock, and interleavings there are not modelled. `NeverReturns` stands for the busy-wait of `hips_del_rule`.
- RuleStore.DelRule: the reference count is an unbounded `nat`. In the source it is an `atomic_t` (`src/hips_common.h:51`), and after 2^31 - 1 matches it wraps to a negative value. A delete that starts after the wrap sees a count of at most 1 and returns at once, where the model says it never returns. A delete that is already waiting has unlinked the entry, so no later match can change the count, and that wait never ends in the source either.
- RuleStore.DeleteAfterMatchNeverReturns: holds for the unbounded count only. In the source, a delete started after 2^31 - 1 matches of the rule returns, as described above.
- Allocation failures (`HIPS_ERROR_MEMORY`, `-ENOMEM`), `copy_from_user` faults (`-EFAULT`) and the `!hips_config` / NULL-pointer guards. The model's values always exist.
- `kfree` of the advanced pointer in `hips_parse_rule_line` after leading blanks are skipped is a memory-safety issue. The value-level model cannot express it.
- `hips_save_config`, `hips_generate_config`, file I/O of `hips_load_config`: reading the file is a parameter (`ConfigRead`), and only the result of the read is modelled.
- The bodies of `hips_log_event`, `hips_update_stats` and `hips_get_process_name` are not part of this model. A hook's effect is recorded as an appended `LogEvent` and a per-category count of block updates. Timestamps, the log size limit and `total_events` are left out.
- Packet header access and the `%pI4` / `%pI6` rendering are kernel library calls. Their results are fields of `Packet`, and `CONFIG_IPV6` is a boolean parameter.
- How the proc file is wired up. The code creates `/proc/hips/rules` without `hips_rules_fops` (`src/hips_main.c:86`), so `hips_rules_write` is unreachable there. The model takes the handler as called.
- Hook registration, the ioctl handler, the character device, the proc `show` functions and module init/exit are outside the rule engine.
- `getopt_long` option handling (`-h`, `-v`, `-d`) in `main`. `MainDispatch` starts from the operands left after options.
- The `hipsctl` handlers other than `add_rule` and `del_rule` are modelled only as the command they are dispatched to. `show_status` issues `HIPS_IOCTL_GET_CONFIG` and `HIPS_IOCTL_GET_STATS`. `enable_module`, `disable_module` and `reload_config` issue `HIPS_IOCTL_ENABLE`, `HIPS_IOCTL_DISABLE` and `HIPS_IOCTL_RELOAD`. `show_stats` issues `HIPS_IOCTL_GET_STATS`, and `show_logs` issues `HIPS_IOCTL_GET_LOGS` up to 101 times: the loop calls the ioctl before it tests the count, so a 101st entry can be taken from the module and never printed. `list_rules` only prints and never opens the device. Their outputs are printed text about kernel state outside the rule engine. For `add_rule` and `del_rule`, `open` and `ioctl` are modelled by the `Device` parameter, and the printed messages are left out.
- The `hipsctl` exit status is the handler's `int` as returned, not reduced to 8 bits.
- HipsCtl.ScannedValue: out-of-range values follow glibc's `strtoul` (saturation, negation modulo 2^64, truncation to 32 bits); the C standard leaves them undefined.
- RuleStore.MatchPattern: requires a non-empty pattern unless the string is empty too, because the source then reads `pattern[-1]`. `ScanFrom` reports such a comparison as `Undefined` rather than giving it a value.
- Hooks.NetworkTargetShape: assumes a rendered address of at most 40 characters (the longest `%pI6` text is 39), so that `:0` is not cut by the 64-byte buffer.

=== FILE: ctext.dfy ===
/**
 The C string operations the module and its control tool rely on, over
 `string` (= seq<char>): the NUL-terminated view of a buffer, bounded copies
 (`strncpy` into a fixed array followed by an explicit terminator),
 `strtok_r` tokenisation, and decimal digits.
 */
module CText {

  /** The C string stored in a buffer: everything before the first NUL. */
  function CStr(buf: string): (s: string)
    ensures |s| <= |buf| && s == buf[..|s|]
    ensures '\0' !in s
    ensures |s| < |buf| ==> buf[|s|] == '\0'
  {
    if buf == [] || buf[0] == '\0' then [] else [buf[0]] + CStr(buf[1..])
  }

  /**
   `strncpy(dst, src, size - 1); dst[size - 1] = '\0'` for a NUL-free `src`:
   the string kept in a `size`-byte array is the first `size - 1` characters.
   */
  function Bounded(src: string, size: nat): (s: string)
    requires size > 0
    ensures |s| == if |src| < size then |src| else size - 1
    ensures s == src[..|s|]
  {
    if |src| < size then src else src[..size - 1]
  }

  /** Length of the leading run of `s` that contains no `d`. */
  function SpanLen(s: string, d: char): (n: nat)
    ensures n <= |s|
    ensures forall i :: 0 <= i < n ==> s[i] != d
    ensures n < |s| ==> s[n] == d
  {
    if s == [] || s[0] == d then 0 else 1 + SpanLen(s[1..], d)
  }

  /**
   The tokens `strtok_r` yields for the delimiter `d`, in order: the maximal
   non-empty runs free of `d`. Runs of delimiters, and delimiters at either
   end, produce no empty tokens.
   */
  function Tokens(s: string, d: char): (toks: seq<string>)
    ensures forall i :: 0 <= i < |toks| ==> toks[i] != [] && d !in toks[i]
    decreases |s|
  {
    if s == [] then []
    else if s[0] == d then Tokens(s[1..], d)
    else
      var n := SpanLen(s, d);
      [s[..n]] + Tokens(s[n..], d)
  }

  /** The fields `fs` written one after another with `d` between them. */
  function Join(fs: seq<string>, d: char): string
  {
    if |fs| == 0 then []
    else if |fs| == 1 then fs[0]
    else fs[0] + [d] + Join(fs[1..], d)
  }

  predicate IsField(f: string, d: char) {
    f != [] && d !in f
  }

  lemma {:induction false} SpanLenOfPrefix(a: string, t: string, d: char)
    requires d !in a
    requires t == [] || t[0] == d
    ensures SpanLen(a + t, d) == |a|
    decreases |a|
  {
    if a != [] {
      assert (a + t)[1..] == a[1..] + t;
      SpanLenOfPrefix(a[1..], t, d);
    } else {
      assert a + t == t;
    }
  }

  /** Splitting undoes joining: `strtok_r` recovers every non-empty field. */
  lemma {:induction false} TokensOfJoin(fs: seq<string>, d: char)
    requires forall i :: 0 <= i < |fs| ==> IsField(fs[i], d)
    ensures Tokens(Join(fs, d), d) == fs
  {
    TokensOfJoinDropsEmpty(fs, d);
  }

  /** The fields that are not empty, in order. */
  function NonEmpty(fs: seq<string>): (r: seq<string>)
    ensures forall i :: 0 <= i < |r| ==> r[i] != []
    ensures (forall i :: 0 <= i < |fs| ==> fs[i] != []) ==> r == fs
  {
    if fs == [] then []
    else if fs[0] == [] then NonEmpty(fs[1..])
    else [fs[0]] + NonEmpty(fs[1..])
  }

  /**
   Empty fields collapse: splitting fields joined with `d` gives back the
   non-empty ones, in order. A leading, trailing or doubled delimiter
   produces no token.
   */
  lemma {:induction false} TokensOfJoinDropsEmpty(fs: seq<string>, d: char)
    requires forall i :: 0 <= i < |fs| ==> d !in fs[i]
    ensures Tokens(Join(fs, d), d) == NonEmpty(fs)
    decreases |fs|
  {
    if |fs| == 0 {
    } else if |fs| == 1 {
      assert NonEmpty(fs[1..]) == [];
      if fs[0] != [] {
        SpanLenOfPrefix(fs[0], [], d);
        assert fs[0] + [] == fs[0];
      }
    } else {
      var rest := Join(fs[1..], d);
      var s := fs[0] + ([d] + rest);
      assert s == fs[0] + [d] + rest;
      TokensOfJoinDropsEmpty(fs[1..], d);
      assert ([d] + rest)[1..] == rest;
      if fs[0] == [] {
        assert s == [d] + rest;
      } else {
        SpanLenOfPrefix(fs[0], [d] + rest, d);
        assert s[0] == fs[0][0];
        assert s[..|fs[0]|] == fs[0];
        assert s[|fs[0]|..] == [d] + rest;
      }
    }
  }

  predicate IsDigit(c: char) {
    '0' <= c <= '9'
  }

  predicate AllDigits(s: string) {
    forall i :: 0 <= i < |s| ==> IsDigit(s[i])
  }

  /** Length of the leading run of decimal digits of `s`. */
  function DigitRun(s: string): (n: nat)
    ensures n <= |s|
    ensures AllDigits(s[..n])
    ensures n < |s| ==> !IsDigit(s[n])
  {
    if s == [] || !IsDigit(s[0]) then 0 else 1 + DigitRun(s[1..])
  }

  /** A string of digits is one run of digits. */
  lemma {:induction false} DigitRunOfDigits(s: string)
    requires AllDigits(s)
    ensures DigitRun(s) == |s|
    decreases |s|
  {
    if s != [] {
      DigitRunOfDigits(s[1..]);
    }
  }

  /** A run of digits followed by a non-digit (or nothing) is read up to its end. */
  lemma {:induction false} DigitRunOfPrefix(d: string, tail: string)
    requires AllDigits(d) && (tail == [] || !IsDigit(tail[0]))
    ensures DigitRun(d + tail) == |d|
    decreases |d|
  {
    if d != [] {
      assert (d + tail)[1..] == d[1..] + tail;
      DigitRunOfPrefix(d[1..], tail);
    } else {
      assert d + tail == tail;
    }
  }

  function DigitValue(c: char): nat
    requires IsDigit(c)
  {
    c as int - '0' as int
  }

  function DigitChar(v: nat): (c: char)
    requires v < 10
    ensures IsDigit(c) && DigitValue(c) == v
  {
    ('0' as int + v) as char
  }

  /** The number a string of decimal digits denotes, most significant first. */
  function DigitsValue(s: string): nat
    requires AllDigits(s)
    decreases |s|
  {
    if s == [] then 0 else DigitsValue(s[..|s| - 1]) * 10 + DigitValue(s[|s| - 1])
  }

  /** `%d` / `%u` rendering of a natural number. */
  function Decimal(n: nat): (s: string)
    ensures s != [] && AllDigits(s)
    decreases n
  {
    if n < 10 then [DigitChar(n)] else Decimal(n / 10) + [DigitChar(n % 10)]
  }

  /** Rendering a number and reading it back gives the number. */
  lemma {:induction false} DecimalRoundTrip(n: nat)
    ensures DigitsValue(Decimal(n)) == n
    decreases n
  {
    if n >= 10 {
      var s := Decimal(n);
      assert s[..|s| - 1] == Decimal(n / 10);
      DecimalRoundTrip(n / 10);
    }
  }

  /** A rendered number has no superfluous leading zero. */
  lemma {:induction false} DecimalNoLeadingZero(n: nat)
    ensures Decimal(n)[0] == '0' <==> n == 0
    decreases n
  {
    if n >= 10 {
      DecimalNoLeadingZero(n / 10);
    }
  }
}

=== FILE: hips_types.dfy ===
/**
 Shared vocabulary of the HIPS module: the constants of the public header
 (rule categories, actions, error codes, field sizes), the fixed-width
 integer types the kernel structures use, and the rule record itself.
 */
module HipsTypes {

  /** The unsigned 32-bit integers of `__u32` / `u32`. */
  const U32_LIMIT: int := 0x1_0000_0000
  type u32 = x: int | 0 <= x < U32_LIMIT

  /** The unsigned 16-bit integers of `__u16` (ports). */
  type u16 = x: int | 0 <= x < 0x1_0000

  /** Rule categories (`HIPS_RULE_*`). */
  const RULE_EXEC: u32 := 1
  const RULE_DNS: u32 := 2
  const RULE_NETWORK: u32 := 3

  /** Rule actions (`HIPS_ACTION_*`). */
  const ACTION_BLOCK: u32 := 0
  const ACTION_ALLOW: u32 := 1
  const ACTION_LOG: u32 := 2

  /**
   Status codes returned by the rule store (`HIPS_SUCCESS`, `HIPS_ERROR_*`).
   The last three complete the set the module defines; allocation failure is
   outside the model and nothing here returns the other two.
   */
  const SUCCESS: int := 0
  const ERROR_INVALID: int := -1
  const ERROR_NOT_FOUND: int := -2
  const ERROR_EXISTS: int := -3
  const ERROR_PERMISSION: int := -4
  const ERROR_MEMORY: int := -5

  /** Sizes of the character arrays of `struct hips_rule`, terminator included. */
  const TARGET_SIZE: nat := 256
  const DESCRIPTION_SIZE: nat := 512

  /** Linux errno values that the module returns negated. */
  const EPERM: int := 1
  const EINVAL: int := 22

  predicate IsCategory(t: u32) {
    t == RULE_EXEC || t == RULE_DNS || t == RULE_NETWORK
  }

  predicate IsAction(a: u32) {
    a == ACTION_BLOCK || a == ACTION_ALLOW || a == ACTION_LOG
  }

  datatype Option<+T> = None | Some(value: T)

  /**
   `struct hips_rule`. The strings are the contents of the NUL-terminated
   arrays, so they hold at most TARGET_SIZE - 1 and DESCRIPTION_SIZE - 1
   characters when the rule is well formed. Neither `ruleType` nor `action`
   is restricted: the store itself only validates the category.
   */
  datatype Rule = Rule(
    ruleId: u32,
    ruleType: u32,
    action: u32,
    priority: u32,
    target: string,
    description: string)

  predicate FitsFields(r: Rule) {
    |r.target| < TARGET_SIZE && |r.description| < DESCRIPTION_SIZE
  }
}

=== FILE: hipsctl.dfy ===
/**
 The argument handling of the control tool `hipsctl`: the command dispatch
 of `main` and the argument checks of `add_rule` and `del_rule`. Opening the
 device and issuing the ioctl are I/O; what the device does is a parameter
 (`Device`), and the model records which request would be sent.
 */
module HipsCtl {
  import opened HipsTypes
  import opened CText
  import ProcRules

  /** The return value of a failed command handler. */
  const FAILED: int := -1

  /** `isspace` in the "C" locale. */
  predicate IsSpace(c: char) {
    c == ' ' || c == '\t' || c == '\n' || c == '\U{000B}' || c == '\U{000C}' || c == '\r'
  }

  function SkipSpace(s: string): (r: string)
    ensures |r| <= |s| && r == s[|s| - |r|..]
    ensures r != [] ==> !IsSpace(r[0])
    ensures forall i :: 0 <= i < |s| - |r| ==> IsSpace(s[i])
  {
    if s != [] && IsSpace(s[0]) then SkipSpace(s[1..]) else s
  }

  /** Largest `unsigned long` plus one (LP64). */
  const ULONG_LIMIT: int := 0x1_0000_0000_0000_0000

  /**
   The `unsigned int` that `%u` stores for the digits' value `v`, read with
   a minus sign when `neg`. C leaves out-of-range values undefined; this is
   glibc's behaviour: `strtoul` saturates at ULONG_MAX on overflow, negates
   modulo 2^64 otherwise, and the result is truncated to 32 bits.
   */
  function ScannedValue(v: nat, neg: bool): (r: u32)
    ensures v < U32_LIMIT && !neg ==> r == v
  {
    var ul := if v >= ULONG_LIMIT then ULONG_LIMIT - 1 else if neg then (ULONG_LIMIT - v) % ULONG_LIMIT else v;
    ul % U32_LIMIT
  }

  /** `%u` after the white space: an optional sign, then at least one decimal digit. */
  function ScanNumber(t: string): (r: Option<u32>)
    ensures r.Some? <==>
      t != [] && (IsDigit(t[0]) || ((t[0] == '+' || t[0] == '-') && |t| > 1 && IsDigit(t[1])))
  {
    var signed := t != [] && (t[0] == '+' || t[0] == '-');
    var body := if signed then t[1..] else t;
    var n := DigitRun(body);
    if n == 0 then None
    else Some(ScannedValue(DigitsValue(body[..n]), t[0] == '-'))
  }

  /**
   `sscanf(s, "%u", &v) == 1`: leading white space, an optional sign, then at
   least one decimal digit; whatever follows the digits is ignored.
   */
  function ScanUnsigned(s: string): (r: Option<u32>)
    ensures r.Some? <==>
      var t := SkipSpace(s);
      t != [] && (IsDigit(t[0]) || ((t[0] == '+' || t[0] == '-') && |t| > 1 && IsDigit(t[1])))
  {
    ScanNumber(SkipSpace(s))
  }

  /** `%u` reads back every 32-bit number rendered in decimal, with any trailing text. */
  lemma ScanUnsignedOfDecimal(n: u32, tail: string)
    requires tail == [] || !IsDigit(tail[0])
    ensures ScanUnsigned(Decimal(n) + tail) == Some(n)
  {
    var s := Decimal(n) + tail;
    SkipSpaceOfDigit(s);
    ScanNumberOfDecimal(n, tail);
  }

  lemma SkipSpaceOfDigit(s: string)
    requires s != [] && IsDigit(s[0])
    ensures SkipSpace(s) == s
  {
    assert !IsSpace(s[0]) by {
      assert '0' <= s[0] <= '9';
    }
  }

  lemma ScanNumberOfDecimal(n: u32, tail: string)
    requires tail == [] || !IsDigit(tail[0])
    ensures ScanNumber(Decimal(n) + tail) == Some(n)
  {
    var d := Decimal(n);
    var s := d + tail;
    assert s[0] == d[0];
    assert s[0] != '+' && s[0] != '-' by {
      assert IsDigit(s[0]);
    }
    assert DigitRun(s) == |d| by {
      DigitRunOfPrefix(d, tail);
    }
    assert s[..|d|] == d;
    assert DigitsValue(d) == n by {
      DecimalRoundTrip(n);
    }
  }

  /**
   The value `%u` stores for every numeral it accepts: an optional sign, a
   run of digits `d` (leading zeros allowed) and any text that does not
   continue the run. The digits' value is converted as `ScannedValue` says,
   negated when the sign is `-`.
   */
  lemma ScanNumberExact(sign: string, d: string, tail: string)
    requires sign == [] || sign == "+" || sign == "-"
    requires d != [] && AllDigits(d)
    requires tail == [] || !IsDigit(tail[0])
    ensures ScanNumber(sign + d + tail) == Some(ScannedValue(DigitsValue(d), sign == "-"))
  {
    var t := sign + d + tail;
    var body := d + tail;
    if sign == [] {
      assert t == body;
      assert !(t[0] == '+' || t[0] == '-') by {
        assert t[0] == d[0] && IsDigit(d[0]);
      }
    } else {
      assert t == sign + body && t[1..] == body;
    }
    DigitRunOfPrefix(d, tail);
    assert body[..|d|] == d;
  }

  /** White space in front of text that does not start with white space is skipped whole. */
  lemma {:induction false} SkipSpaceOfPrefix(ws: string, t: string)
    requires forall i :: 0 <= i < |ws| ==> IsSpace(ws[i])
    requires t == [] || !IsSpace(t[0])
    ensures SkipSpace(ws + t) == t
    decreases |ws|
  {
    if ws == [] {
      assert ws + t == t;
    } else {
      assert (ws + t)[0] == ws[0];
      assert (ws + t)[1..] == ws[1..] + t;
      SkipSpaceOfPrefix(ws[1..], t);
    }
  }

  /** `sscanf("%u")` on white space, a sign, digits and any non-digit text. */
  lemma ScanUnsignedExact(ws: string, sign: string, d: string, tail: string)
    requires forall i :: 0 <= i < |ws| ==> IsSpace(ws[i])
    requires sign == [] || sign == "+" || sign == "-"
    requires d != [] && AllDigits(d)
    requires tail == [] || !IsDigit(tail[0])
    ensures ScanUnsigned(ws + sign + d + tail) == Some(ScannedValue(DigitsValue(d), sign == "-"))
  {
    var t := sign + d + tail;
    assert ws + sign + d + tail == ws + t;
    assert !IsSpace(t[0]) by {
      if sign == [] {
        assert t[0] == d[0] && IsDigit(d[0]);
      } else {
        assert t[0] == sign[0];
      }
    }
    SkipSpaceOfPrefix(ws, t);
    ScanNumberExact(sign, d, tail);
  }

  /**
   `-1` is stored as the largest 32-bit value: the negation wraps. With
   `ScanUnsignedExact`, this is the id `del-rule -1` sends.
   */
  lemma ScannedMinusOne()
    ensures ScannedValue(1, true) == 0xFFFF_FFFF
  {
    assert (ULONG_LIMIT - 1) % ULONG_LIMIT == 0xFFFF_FFFF_FFFF_FFFF;
    assert 0xFFFF_FFFF_FFFF_FFFF == 0xFFFF_FFFF * U32_LIMIT + 0xFFFF_FFFF;
  }

  /** Category keywords of `add_rule`. */
  function CliCategory(word: string): (r: Option<u32>)
    ensures r.Some? ==> IsCategory(r.value) && word == ProcRules.CategoryWord(r.value)
    ensures r.None? ==> forall t :: IsCategory(t) ==> word != ProcRules.CategoryWord(t)
  {
    if word == "exec" then Some(RULE_EXEC)
    else if word == "dns" then Some(RULE_DNS)
    else if word == "network" then Some(RULE_NETWORK)
    else None
  }

  /** Action keywords of `add_rule`. */
  function CliAction(word: string): (r: Option<u32>)
    ensures r.Some? ==> IsAction(r.value) && word == ProcRules.ActionWord(r.value)
    ensures r.None? ==> forall a :: IsAction(a) ==> word != ProcRules.ActionWord(a)
  {
    if word == "block" then Some(ACTION_BLOCK)
    else if word == "allow" then Some(ACTION_ALLOW)
    else if word == "log" then Some(ACTION_LOG)
    else None
  }

  /** The tool and the proc file read category and action words the same way. */
  lemma KeywordTablesAgree(word: string)
    ensures CliCategory(word) == ProcRules.ProcCategory(word)
    ensures CliAction(word) == ProcRules.ProcAction(word)
  {
  }

  /**
   The rule `add_rule` sends for `add-rule <category> <action> <priority>
   <target> [description]`, or None when it returns -1 before opening the
   device. Five arguments are demanded, so the description is always taken.
   */
  function ParseAddRuleArgs(args: seq<string>): (r: Option<Rule>)
    ensures |args| < 5 ==> r.None?
    ensures r.Some? ==>
      && CliCategory(args[0]) == Some(r.value.ruleType)
      && CliAction(args[1]) == Some(r.value.action)
      && ScanUnsigned(args[2]) == Some(r.value.priority)
      && r.value.ruleId == 0 && FitsFields(r.value)
      && r.value.target == Bounded(args[3], TARGET_SIZE)
      && r.value.description == Bounded(args[4], DESCRIPTION_SIZE)
    ensures |args| >= 5 && CliCategory(args[0]).Some? && CliAction(args[1]).Some? && ScanUnsigned(args[2]).Some? ==> r.Some?
  {
    if |args| < 5 then None
    else match CliCategory(args[0])
    case None => None
    case Some(category) =>
      match CliAction(args[1])
      case None => None
      case Some(action) =>
        match ScanUnsigned(args[2])
        case None => None
        case Some(priority) =>
          var target := Bounded(args[3], TARGET_SIZE);
          var description := if |args| > 4 then Bounded(args[4], DESCRIPTION_SIZE) else "";
          Some(Rule(0, category, action, priority, target, description))
  }

  /** How the device answers: it cannot be opened, the ioctl fails, or it succeeds. */
  datatype Device = CannotOpen | IoctlFails | IoctlSucceeds

  /** A handler's return value and the request it issued to the device, if any. */
  datatype CliOutcome<T> = CliOutcome(code: int, sent: Option<T>)

  /** `add_rule`. */
  function AddRuleCommand(args: seq<string>, dev: Device): (r: CliOutcome<Rule>)
    ensures r.code == 0 || r.code == FAILED
    ensures r.code == 0 <==> ParseAddRuleArgs(args).Some? && dev.IoctlSucceeds?
    ensures r.sent.Some? <==> ParseAddRuleArgs(args).Some? && !dev.CannotOpen?
    ensures r.sent.Some? ==> r.sent == ParseAddRuleArgs(args) && r.sent.value.ruleId == 0
  {
    match ParseAddRuleArgs(args)
    case None => CliOutcome(FAILED, None)
    case Some(rule) =>
      if dev.CannotOpen? then CliOutcome(FAILED, None)
      else if dev.IoctlFails? then CliOutcome(FAILED, Some(rule))
      else CliOutcome(0, Some(rule))
  }

  /** `del_rule`: the id is the first argument, read with `%u`. */
  function DelRuleCommand(args: seq<string>, dev: Device): (r: CliOutcome<u32>)
    ensures r.code == 0 || r.code == FAILED
    ensures |args| < 1 ==> r == CliOutcome(FAILED, None)
    ensures |args| >= 1 && ScanUnsigned(args[0]).None? ==> r == CliOutcome(FAILED, None)
    ensures r.sent.Some? <==> |args| >= 1 && ScanUnsigned(args[0]).Some? && !dev.CannotOpen?
    ensures r.sent.Some? ==> r.sent == ScanUnsigned(args[0])
    ensures r.code == 0 <==> |args| >= 1 && ScanUnsigned(args[0]).Some? && dev.IoctlSucceeds?
  {
    if |args| < 1 then CliOutcome(FAILED, None)
    else match ScanUnsigned(args[0])
      case None => CliOutcome(FAILED, None)
      case Some(id) =>
        if dev.CannotOpen? then CliOutcome(FAILED, None)
        else if dev.IoctlFails? then CliOutcome(FAILED, Some(id))
        else CliOutcome(0, Some(id))
  }

  // ---------------------------------------------------------------- dispatch

  datatype Command = Status | Enable | Disable | Reload | Stats | Logs | AddRule | DelRule | ListRules

  /** The word that selects each command. */
  function CommandWord(c: Command): string {
    match c
    case Status => "status"
    case Enable => "enable"
    case Disable => "disable"
    case Reload => "reload"
    case Stats => "stats"
    case Logs => "logs"
    case AddRule => "add-rule"
    case DelRule => "del-rule"
    case ListRules => "list-rules"
  }

  /** The `strcmp` chain of `main`. */
  function LookupCommand(word: string): (r: Option<Command>)
    ensures r.Some? ==> CommandWord(r.value) == word
    ensures r.None? ==> forall c :: word != CommandWord(c)
  {
    if word == "status" then Some(Status)
    else if word == "enable" then Some(Enable)
    else if word == "disable" then Some(Disable)
    else if word == "reload" then Some(Reload)
    else if word == "stats" then Some(Stats)
    else if word == "logs" then Some(Logs)
    else if word == "add-rule" then Some(AddRule)
    else if word == "del-rule" then Some(DelRule)
    else if word == "list-rules" then Some(ListRules)
    else None
  }

  /** Each known word selects exactly the command it names, and every command has its word. */
  lemma LookupIsCommandWord(word: string, c: Command)
    ensures LookupCommand(word) == Some(c) <==> word == CommandWord(c)
  {
  }

  /** `main` either exits with a code itself or hands the remaining arguments to one handler. */
  datatype Dispatch = Exit(code: int) | Run(cmd: Command, args: seq<string>)

  /**
   Command dispatch of `main`, given the operands left after option
   processing (`argv[optind..]`).
   */
  function MainDispatch(operands: seq<string>): (r: Dispatch)
    ensures r.Exit? <==> |operands| == 0 || LookupCommand(operands[0]).None?
    ensures r.Exit? ==> r.code == 1
    ensures r.Run? ==> CommandWord(r.cmd) == operands[0] && r.args == operands[1..]
  {
    if |operands| == 0 then Exit(1)
    else match LookupCommand(operands[0])
      case None => Exit(1)
      case Some(c) =>
        LookupIsCommandWord(operands[0], c);
        Run(c, operands[1..])
  }

  // ---------------------------------------------------------------- the two front ends

  /** The `add-rule` arguments that describe `rule`. */
  function RuleArgs(rule: Rule): seq<string>
    requires ProcRules.Writable(rule)
  {
    [ProcRules.CategoryWord(rule.ruleType), ProcRules.ActionWord(rule.action),
     Decimal(rule.priority), rule.target, rule.description]
  }

  /** The arguments that describe a rule are read back as that rule, with id 0. */
  lemma AddRuleArgsRoundTrip(rule: Rule)
    requires ProcRules.Writable(rule)
    ensures ParseAddRuleArgs(RuleArgs(rule)) == Some(rule.(ruleId := 0))
  {
    var args := RuleArgs(rule);
    assert args[0] == ProcRules.CategoryWord(rule.ruleType);
    assert args[1] == ProcRules.ActionWord(rule.action);
    assert args[2] == Decimal(rule.priority);
    assert args[3] == rule.target && args[4] == rule.description;
    KeywordArgsRead(rule.ruleType, rule.action);
    ScanUnsignedOfWord(rule.priority);
    var r := ParseAddRuleArgs(args);
    assert r.Some?;
    assert r.value.priority == rule.priority;
    assert r.value.ruleType == rule.ruleType && r.value.action == rule.action;
    assert r.value.target == rule.target && r.value.description == rule.description;
  }

  lemma KeywordArgsRead(t: u32, a: u32)
    requires IsCategory(t) && IsAction(a)
    ensures CliCategory(ProcRules.CategoryWord(t)) == Some(t)
    ensures CliAction(ProcRules.ActionWord(a)) == Some(a)
  {
  }

  lemma ScanUnsignedOfWord(n: u32)
    ensures ScanUnsigned(Decimal(n)) == Some(n)
  {
    ScanUnsignedOfDecimal(n, []);
    assert Decimal(n) + [] == Decimal(n);
  }

  /**
   A rule typed as `add-rule` arguments and the same rule written as a line
   of the proc file produce the same request: a rule with id 0 and the same
   fields.
   */
  lemma FrontEndsAgree(rule: Rule)
    requires ProcRules.Writable(rule)
    ensures ProcRules.ParseLine(ProcRules.RuleLine(rule)) == ProcRules.Parsed(rule.(ruleId := 0))
    ensures ParseAddRuleArgs(RuleArgs(rule)) == Some(ProcRules.ParseLine(ProcRules.RuleLine(rule)).rule)
  {
    AddRuleArgsRoundTrip(rule);
    ProcRules.ParseRuleLineRoundTrip(rule);
  }

  /**
   The priority readers differ on trailing text: `%u` stops at the first
   non-digit and keeps the number, `kstrtou32` refuses anything after the
   digits but one newline.
   */
  lemma TrailingTextSplitsReaders(n: u32, tail: string)
    requires tail != [] && !IsDigit(tail[0]) && tail != "\n"
    ensures ScanUnsigned(Decimal(n) + tail) == Some(n)
    ensures ProcRules.KStrToU32(Decimal(n) + tail).None?
  {
    ScanUnsignedOfDecimal(n, tail);
    var d := Decimal(n);
    var s := d + tail;
    DecimalNoLeadingZero(n);
    assert s[0] == d[0] && s[0] != '+';
    DigitRunOfDigits(d);
    DigitRunOfPrefix(d, tail);
    assert s[|d|..] == tail;
  }

  /** Leading white space: `%u` skips it, `kstrtou32` refuses it. */
  lemma LeadingSpaceSplitsReaders(n: u32, c: char)
    requires IsSpace(c)
    ensures ScanUnsigned([c] + Decimal(n)) == Some(n)
    ensures ProcRules.KStrToU32([c] + Decimal(n)).None?
  {
    var d := Decimal(n);
    var s := [c] + d;
    assert s[1..] == d;
    SkipSpaceOfDigit(d);
    assert SkipSpace(s) == d;
    ScanNumberOfDecimal(n, []);
    assert d + [] == d;
    assert !IsDigit(s[0]) && s[0] != '+';
  }
}

=== FILE: hooks.dfy ===
/**
 The event verdicts of `hips_exec_hook`, `hips_dns_hook` and
 `hips_network_hook`, with the target producers they rely on
 (`hips_parse_dns_query`, `hips_parse_network_addr`,
 `hips_format_network_addr`).

 `hips_log_event` and `hips_update_stats` are declared by the module but
 their bodies are not part of this model; their effect is recorded
 abstractly, as an appended log entry and as a count of update calls per
 category. Header access on the packet (`ip_hdr`, `udp_hdr`, ...) and the
 `%pI4` / `%pI6` address rendering are kernel library calls; their results
 are fields of the `Packet` given to a hook.
 */
module Hooks {
  import opened HipsTypes
  import opened CText
  import opened RuleStore

  /** Netfilter verdicts. */
  const NF_DROP: int := 0
  const NF_ACCEPT: int := 1

  /** Protocol families, IP protocols, Ethernet types and address families. */
  const NFPROTO_IPV4: int := 2
  const NFPROTO_IPV6: int := 10
  const IPPROTO_TCP: int := 6
  const IPPROTO_UDP: int := 17
  const ETH_P_IP: int := 0x0800
  const ETH_P_IPV6: int := 0x86DD
  const AF_INET: int := 2
  const AF_INET6: int := 10

  const DNS_PORT: int := 53

  /** Sizes of the hooks' local buffers `domain[256]` and `addr_str[64]`. */
  const DOMAIN_SIZE: nat := 256
  const ADDR_STR_SIZE: nat := 64

  /**
   The fixed details texts the hooks log. They serve as labels: the model
   passes them to the log unchanged and never measures or cuts them, so
   their UTF-8 byte length plays no part.
   */
  const EXEC_BLOCKED: string := "进程执行被阻止"
  const EXEC_LOGGED: string := "进程执行被记录"
  const DNS_BLOCKED: string := "DNS 查询被阻止"
  const DNS_LOGGED: string := "DNS 查询被记录"
  const NETWORK_BLOCKED: string := "网络连接被阻止"
  const NETWORK_LOGGED: string := "网络连接被记录"

  /** One call of `hips_log_event`. */
  datatype LogEvent = LogEvent(
    ruleId: u32, ruleType: u32, action: u32, pid: u32,
    processName: string, target: string, details: string)

  /** Number of `hips_update_stats(category, HIPS_ACTION_BLOCK)` calls per category. */
  datatype Stats = Stats(exec: nat, dns: nat, network: nat)

  function Blocks(st: Stats, t: u32): nat
    requires IsCategory(t)
  {
    if t == RULE_EXEC then st.exec else if t == RULE_DNS then st.dns else st.network
  }

  /** The statistics after one more blocked event of category `t`. */
  function CountBlock(st: Stats, t: u32): (st': Stats)
    requires IsCategory(t)
    ensures Blocks(st', t) == Blocks(st, t) + 1
    ensures forall u :: IsCategory(u) && u != t ==> Blocks(st', u) == Blocks(st, u)
  {
    if t == RULE_EXEC then st.(exec := st.exec + 1)
    else if t == RULE_DNS then st.(dns := st.dns + 1)
    else st.(network := st.network + 1)
  }

  /** What the hooks read and change: the rules, `config.enabled`, the log and the statistics. */
  datatype Engine = Engine(store: Store, enabled: u32, log: seq<LogEvent>, stats: Stats)

  datatype HookOutcome = HookOutcome(engine: Engine, verdict: int)

  /** The texts one hook logs with. */
  datatype HookTexts = HookTexts(blocked: string, logged: string)

  /**
   The part the three hooks share once a target is known: match, then act on
   the matched rule's action. A Block match logs once, counts once and
   denies; a Log match logs once and allows; an Allow match, a rule with any
   other action, or no match allows with neither effect. The matcher's
   reference on a hit is taken whatever the action.
   */
  function Decide(e: Engine, t: u32, target: string, pid: u32, name: string,
                  texts: HookTexts, deny: int, allow: int): (r: HookOutcome)
    requires IsCategory(t) && MatchDefined(e.store, t, target)
    requires deny != allow
    ensures r.engine.enabled == e.enabled
    ensures (forall k :: !IsFirstExact(Bucket(e.store, t), t, target, k)) ==> r == HookOutcome(e, allow)
    ensures forall k :: IsFirstExact(Bucket(e.store, t), t, target, k) ==>
      var rule := Bucket(e.store, t)[k].rule;
      && BumpedAt(e.store, r.engine.store, t, k)
      && (r.verdict == deny <==> rule.action == ACTION_BLOCK)
      && (r.verdict != deny ==> r.verdict == allow)
      && (rule.action == ACTION_BLOCK ==>
            && r.engine.log == e.log + [LogEvent(rule.ruleId, t, ACTION_BLOCK, pid, name, target, texts.blocked)]
            && r.engine.stats == CountBlock(e.stats, t))
      && (rule.action == ACTION_LOG ==>
            && r.engine.log == e.log + [LogEvent(rule.ruleId, t, ACTION_LOG, pid, name, target, texts.logged)]
            && r.engine.stats == e.stats)
      && (rule.action != ACTION_BLOCK && rule.action != ACTION_LOG ==>
            r.engine.log == e.log && r.engine.stats == e.stats)
  {
    var m := MatchRule(e.store, t, target);
    var e1 := e.(store := m.store);
    if m.code == SUCCESS && m.matched.Some? then
      var rule := m.matched.value;
      if rule.action == ACTION_BLOCK then
        var event := LogEvent(rule.ruleId, t, ACTION_BLOCK, pid, name, target, texts.blocked);
        HookOutcome(e1.(log := e.log + [event], stats := CountBlock(e.stats, t)), deny)
      else if rule.action == ACTION_LOG then
        var event := LogEvent(rule.ruleId, t, ACTION_LOG, pid, name, target, texts.logged);
        HookOutcome(e1.(log := e.log + [event]), allow)
      else
        HookOutcome(e1, allow)
    else
      HookOutcome(e1, allow)
  }

  // ---------------------------------------------------------------- exec

  /** The exec hook allows with 0 and denies with `-EPERM`. */
  const EXEC_DENY: int := -EPERM

  /**
   `hips_exec_hook`: `exePath` is `bprm->filename` and `name` the result of
   `hips_get_process_name(current)`.
   */
  function ExecHook(e: Engine, exePath: string, pid: u32, name: string): (r: HookOutcome)
    requires e.enabled != 0 ==> MatchDefined(e.store, RULE_EXEC, exePath)
    ensures e.enabled == 0 ==> r == HookOutcome(e, 0)
    ensures r.verdict == 0 || r.verdict == EXEC_DENY
    ensures e.enabled != 0 ==>
      r == Decide(e, RULE_EXEC, exePath, pid, name, HookTexts(EXEC_BLOCKED, EXEC_LOGGED), EXEC_DENY, 0)
  {
    if e.enabled == 0 then HookOutcome(e, 0)
    else Decide(e, RULE_EXEC, exePath, pid, name, HookTexts(EXEC_BLOCKED, EXEC_LOGGED), EXEC_DENY, 0)
  }

  // ---------------------------------------------------------------- dns

  /**
   What a hook sees of a packet: the netfilter family of the hook
   (`state->pf`), the Ethernet type (`skb->protocol`), the IP header's
   protocol or IPv6 next-header field, the destination port of the transport
   header in host order, and the rendered destination address.
   */
  datatype Packet = Packet(pf: int, ethProtocol: int, nextHeader: int, destPort: u16, destAddr: string)

  /** A DNS query: a known family, UDP or TCP, destination port 53. */
  predicate IsDnsQuery(ipv6: bool, p: Packet) {
    && (p.pf == NFPROTO_IPV4 || (ipv6 && p.pf == NFPROTO_IPV6))
    && (p.nextHeader == IPPROTO_UDP || p.nextHeader == IPPROTO_TCP)
    && p.destPort == DNS_PORT
  }

  /** The filter of `hips_dns_hook`, branch for branch; `ipv6` is `CONFIG_IPV6`. */
  function DnsFilter(ipv6: bool, p: Packet): (b: bool)
    ensures b <==> IsDnsQuery(ipv6, p)
  {
    if p.pf == NFPROTO_IPV4 then
      if p.nextHeader == IPPROTO_UDP then p.destPort == DNS_PORT
      else if p.nextHeader == IPPROTO_TCP then p.destPort == DNS_PORT
      else false
    else if ipv6 && p.pf == NFPROTO_IPV6 then
      if p.nextHeader == IPPROTO_UDP then p.destPort == DNS_PORT
      else if p.nextHeader == IPPROTO_TCP then p.destPort == DNS_PORT
      else false
    else false
  }

  /** `hips_parse_dns_query`: a stub that always yields the same domain. */
  function ParseDnsQuery(p: Packet): (domain: string)
    ensures domain == "example.com"
  {
    Bounded("example.com", DOMAIN_SIZE)
  }

  /** `hips_dns_hook`: packets that are not DNS queries pass before any matching. */
  function DnsHook(e: Engine, ipv6: bool, p: Packet, pid: u32): (r: HookOutcome)
    requires e.enabled != 0 && IsDnsQuery(ipv6, p) ==> MatchDefined(e.store, RULE_DNS, "example.com")
    ensures e.enabled == 0 || !IsDnsQuery(ipv6, p) ==> r == HookOutcome(e, NF_ACCEPT)
    ensures r.verdict == NF_ACCEPT || r.verdict == NF_DROP
    ensures e.enabled != 0 && IsDnsQuery(ipv6, p) ==>
      r == Decide(e, RULE_DNS, "example.com", pid, "dns", HookTexts(DNS_BLOCKED, DNS_LOGGED), NF_DROP, NF_ACCEPT)
  {
    if e.enabled == 0 then HookOutcome(e, NF_ACCEPT)
    else if !DnsFilter(ipv6, p) then HookOutcome(e, NF_ACCEPT)
    else
      var domain := ParseDnsQuery(p);
      Decide(e, RULE_DNS, domain, pid, "dns", HookTexts(DNS_BLOCKED, DNS_LOGGED), NF_DROP, NF_ACCEPT)
  }

  // ---------------------------------------------------------------- network

  /** `struct hips_network_addr`, with the address kept in rendered form. */
  datatype NetworkAddr = NetworkAddr(family: int, addrText: string, port: u16)

  /** `hips_parse_network_addr`: the family from the Ethernet type; the port is never filled in. */
  function ParseNetworkAddr(ipv6: bool, p: Packet): (r: Option<NetworkAddr>)
    ensures r.Some? <==> p.ethProtocol == ETH_P_IP || (ipv6 && p.ethProtocol == ETH_P_IPV6)
    ensures r.Some? ==> r.value.port == 0 && r.value.addrText == p.destAddr
    ensures r.Some? ==> (r.value.family == AF_INET <==> p.ethProtocol == ETH_P_IP)
    ensures r.Some? ==> (r.value.family == AF_INET || r.value.family == AF_INET6)
  {
    if p.ethProtocol == ETH_P_IP then Some(NetworkAddr(AF_INET, p.destAddr, 0))
    else if ipv6 && p.ethProtocol == ETH_P_IPV6 then Some(NetworkAddr(AF_INET6, p.destAddr, 0))
    else None
  }

  /** `hips_format_network_addr`: `address:port` for a known family, `unknown` otherwise. */
  function FormatNetworkAddr(ipv6: bool, a: NetworkAddr): (s: string)
    ensures |s| < ADDR_STR_SIZE
    ensures a.family != AF_INET && !(ipv6 && a.family == AF_INET6) ==> s == "unknown"
    ensures (a.family == AF_INET || (ipv6 && a.family == AF_INET6)) && |a.addrText| + 1 + |Decimal(a.port)| < ADDR_STR_SIZE ==>
      s == a.addrText + ":" + Decimal(a.port)
  {
    if a.family == AF_INET || (ipv6 && a.family == AF_INET6) then
      Bounded(a.addrText + ":" + Decimal(a.port), ADDR_STR_SIZE)
    else
      Bounded("unknown", ADDR_STR_SIZE)
  }

  /** The target the network hook matches with, if it gets that far. */
  function NetworkTarget(ipv6: bool, p: Packet): Option<string> {
    match ParseNetworkAddr(ipv6, p)
    case None => None
    case Some(a) => Some(FormatNetworkAddr(ipv6, a))
  }

  /**
   The network target always carries port 0, and never reads `unknown`
   (the parser only produces the two known families).
   */
  lemma NetworkTargetShape(ipv6: bool, p: Packet)
    requires NetworkTarget(ipv6, p).Some? && |p.destAddr| <= 40
    ensures NetworkTarget(ipv6, p).value == p.destAddr + ":0"
    ensures NetworkTarget(ipv6, p).value != "unknown"
  {
    assert Decimal(0) == "0";
    var s := NetworkTarget(ipv6, p).value;
    assert s[|s| - 1] == '0';
  }

  /** `hips_network_hook`. */
  function NetworkHook(e: Engine, ipv6: bool, p: Packet, pid: u32): (r: HookOutcome)
    requires e.enabled != 0 && NetworkTarget(ipv6, p).Some? ==>
      MatchDefined(e.store, RULE_NETWORK, NetworkTarget(ipv6, p).value)
    ensures e.enabled == 0 || NetworkTarget(ipv6, p).None? ==> r == HookOutcome(e, NF_ACCEPT)
    ensures r.verdict == NF_ACCEPT || r.verdict == NF_DROP
    ensures e.enabled != 0 && NetworkTarget(ipv6, p).Some? ==>
      r == Decide(e, RULE_NETWORK, NetworkTarget(ipv6, p).value, pid, "network",
                  HookTexts(NETWORK_BLOCKED, NETWORK_LOGGED), NF_DROP, NF_ACCEPT)
  {
    if e.enabled == 0 then HookOutcome(e, NF_ACCEPT)
    else match ParseNetworkAddr(ipv6, p)
      case None => HookOutcome(e, NF_ACCEPT)
      case Some(a) =>
        var target := FormatNetworkAddr(ipv6, a);
        Decide(e, RULE_NETWORK, target, pid, "network", HookTexts(NETWORK_BLOCKED, NETWORK_LOGGED), NF_DROP, NF_ACCEPT)
  }

  // ---------------------------------------------------------------- scenarios

  /**
   An exec rule with action Block, added with id 0 to a store that has no
   earlier rule for the same path, denies that path: one log entry carrying
   the new id, one more exec block, and no other statistic changes.
   */
  lemma AddedBlockRuleDeniesExec(e: Engine, rule: Rule, pid: u32, name: string)
    requires e.enabled != 0 && PatternsNonEmpty(e.store)
    requires rule.ruleId == 0 && rule.ruleType == RULE_EXEC && rule.action == ACTION_BLOCK && rule.target != []
    requires forall j :: 0 <= j < |e.store.exec| ==> !Exact(e.store.exec[j], RULE_EXEC, rule.target)
    ensures
      var a := AddRule(e.store, rule);
      var e1 := e.(store := a.store);
      && MatchDefined(a.store, RULE_EXEC, rule.target)
      && var r := ExecHook(e1, rule.target, pid, name);
      && r.verdict == EXEC_DENY
      && r.engine.log == e.log + [LogEvent(a.rule.ruleId, RULE_EXEC, ACTION_BLOCK, pid, name, rule.target, EXEC_BLOCKED)]
      && r.engine.stats == CountBlock(e.stats, RULE_EXEC)
  {
    var a := AddRule(e.store, rule);
    var l := Bucket(a.store, RULE_EXEC);
    var k := |e.store.exec|;
    assert l == e.store.exec + [Entry(a.rule, 1)];
    assert IsFirstExact(l, RULE_EXEC, rule.target, k);
    assert PatternsNonEmpty(a.store);
    MatchDefinedWhenPatternsNonEmpty(a.store, RULE_EXEC, rule.target);
  }

  /** With the module disabled every hook allows and changes nothing. */
  lemma DisabledAllowsAll(e: Engine, ipv6: bool, p: Packet, path: string, pid: u32, name: string)
    requires e.enabled == 0
    ensures ExecHook(e, path, pid, name) == HookOutcome(e, 0)
    ensures DnsHook(e, ipv6, p, pid) == HookOutcome(e, NF_ACCEPT)
    ensures NetworkHook(e, ipv6, p, pid) == HookOutcome(e, NF_ACCEPT)
  {
  }
}

=== FILE: proc_rules.dfy ===
/**
 The text front end of the `rules` proc file: `hips_rules_write`,
 `hips_parse_rules_command` and `hips_parse_rule_line`. A write holds lines
 of the form `category|action|priority|target[|description]`; each line that
 parses becomes a call of `hips_add_rule` with id 0.
 */
module ProcRules {
  import opened HipsTypes
  import opened CText
  import opened RuleStore

  /** Largest write `hips_rules_write` accepts. */
  const WRITE_MAX: nat := 4096

  /** Category keywords of the text format. */
  function ProcCategory(word: string): (r: Option<u32>)
    ensures r.Some? ==> IsCategory(r.value) && word == CategoryWord(r.value)
    ensures r.None? ==> forall t :: IsCategory(t) ==> word != CategoryWord(t)
  {
    if word == "exec" then Some(RULE_EXEC)
    else if word == "dns" then Some(RULE_DNS)
    else if word == "network" then Some(RULE_NETWORK)
    else None
  }

  /** Action keywords of the text format. */
  function ProcAction(word: string): (r: Option<u32>)
    ensures r.Some? ==> IsAction(r.value) && word == ActionWord(r.value)
    ensures r.None? ==> forall a :: IsAction(a) ==> word != ActionWord(a)
  {
    if word == "block" then Some(ACTION_BLOCK)
    else if word == "allow" then Some(ACTION_ALLOW)
    else if word == "log" then Some(ACTION_LOG)
    else None
  }

  /**
   The strings `kstrtou32(s, 10, &v)` can accept: an optional `+`, a
   non-empty run of decimal digits `d`, and an optional trailing newline.
   */
  function KForm(plus: bool, d: string, nl: bool): string {
    (if plus then "+" else "") + d + (if nl then "\n" else "")
  }

  /** What is left once an optional leading `+` is dropped. */
  function UnsignedBody(s: string): string {
    if s != [] && s[0] == '+' then s[1..] else s
  }

  /** The parts of a well-formed number are read back exactly. */
  lemma UnsignedBodyOfKForm(plus: bool, d: string, nl: bool)
    requires d != [] && AllDigits(d)
    ensures var body := UnsignedBody(KForm(plus, d, nl));
      && DigitRun(body) == |d| && body[..|d|] == d && body[|d|..] == (if nl then "\n" else "")
  {
    var tail := if nl then "\n" else "";
    var body := UnsignedBody(KForm(plus, d, nl));
    assert body == d + tail by {
      if plus {
        assert KForm(plus, d, nl) == ['+'] + (d + tail);
      } else {
        assert KForm(plus, d, nl) == d + tail;
      }
    }
    DigitRunOfPrefix(d, tail);
  }

  lemma UnsignedBodyOfEveryKForm()
    ensures forall plus, d, nl {:trigger KForm(plus, d, nl)} :: d != [] && AllDigits(d) ==>
      var body := UnsignedBody(KForm(plus, d, nl));
      && DigitRun(body) == |d| && body[..|d|] == d && body[|d|..] == (if nl then "\n" else "")
  {
    forall plus, d, nl | d != [] && AllDigits(d) {
      UnsignedBodyOfKForm(plus, d, nl);
    }
  }

  /**
   `kstrtou32(s, 10, &v) == 0`: an optional `+`, at least one decimal digit,
   at most one trailing newline, and a value that fits 32 bits.
   */
  function KStrToU32(s: string): (r: Option<u32>)
    ensures r.Some? ==> s != [] && (s[0] == '+' || IsDigit(s[0]))
    ensures r.Some? ==> forall i :: 0 <= i < |s| ==> IsDigit(s[i]) || s[i] == '+' || s[i] == '\n'
  {
    var body := UnsignedBody(s);
    var n := DigitRun(body);
    var rest := body[n..];
    if n == 0 || !(rest == [] || rest == "\n") then None
    else
      var v := DigitsValue(body[..n]);
      if v < U32_LIMIT then Some(v) else None
  }

  /**
   Exactly the strings of the shape `KForm(plus, d, nl)` whose digits `d`
   denote a value below 2^32 are accepted, and that value is the result. A
   sign other than `+`, blanks, other trailing text and overflow are refused.
   */
  lemma KStrToU32Exact(s: string)
    ensures KStrToU32(s).Some? ==>
      exists plus, d, nl :: d != [] && AllDigits(d) && s == KForm(plus, d, nl) && KStrToU32(s).value == DigitsValue(d)
    ensures forall plus, d, nl {:trigger KForm(plus, d, nl)} :: d != [] && AllDigits(d) && s == KForm(plus, d, nl) ==>
      KStrToU32(s) == (if DigitsValue(d) < U32_LIMIT then Some(DigitsValue(d)) else None)
  {
    UnsignedBodyOfEveryKForm();
    var body := UnsignedBody(s);
    var n := DigitRun(body);
    var rest := body[n..];
    if KStrToU32(s).Some? {
      assert body == body[..n] + rest;
      assert s == KForm(s[0] == '+', body[..n], rest == "\n");
    }
  }

  /** `kstrtou32` reads back every 32-bit number rendered in decimal. */
  lemma KStrToU32OfDecimal(n: u32)
    ensures KStrToU32(Decimal(n)) == Some(n)
  {
    var s := Decimal(n);
    DecimalNoLeadingZero(n);
    assert s[0] != '+';
    assert DigitRun(s) == |s| by {
      DigitRunOfDigits(s);
    }
    assert s[..|s|] == s;
    DecimalRoundTrip(n);
  }

  /** A number written with a sign other than `+` is refused. */
  lemma KStrToU32RefusesMinus(s: string)
    requires s != [] && s[0] == '-'
    ensures KStrToU32(s).None?
  {
  }

  /** The line without its leading spaces and tabs. */
  function SkipBlanks(line: string): (r: string)
    ensures |r| <= |line| && r == line[|line| - |r|..]
    ensures forall i :: 0 <= i < |line| - |r| ==> line[i] == ' ' || line[i] == '\t'
    ensures r != [] ==> r[0] != ' ' && r[0] != '\t'
  {
    if line != [] && (line[0] == ' ' || line[0] == '\t') then SkipBlanks(line[1..]) else line
  }

  /** What one line asks for: nothing (blank or comment), an error, or a rule. */
  datatype LineParse = Skip | Bad | Parsed(rule: Rule)

  /** The line is blank or a comment once leading blanks are gone. */
  predicate IsSkipped(line: string) {
    var body := SkipBlanks(line);
    body == [] || body[0] == '#'
  }

  /** The `|`-separated fields of a line, as `strtok_r` returns them. */
  function Fields(line: string): seq<string> {
    Tokens(SkipBlanks(line), '|')
  }

  /** The fields that make a line acceptable: at least four, with a known
      category, a known action and a 32-bit decimal priority. */
  predicate FieldsOk(f: seq<string>) {
    |f| >= 4 && ProcCategory(f[0]).Some? && ProcAction(f[1]).Some? && KStrToU32(f[2]).Some?
  }

  /** The rule the fields of a non-blank line describe. */
  function ParseFields(f: seq<string>): (r: LineParse)
    requires forall i :: 0 <= i < |f| ==> f[i] != []
    ensures r.Parsed? <==> FieldsOk(f)
    ensures r.Parsed? ==>
      && r.rule.ruleId == 0 && IsCategory(r.rule.ruleType) && IsAction(r.rule.action)
      && r.rule.ruleType == ProcCategory(f[0]).value && r.rule.action == ProcAction(f[1]).value
      && r.rule.priority == KStrToU32(f[2]).value
      && FitsFields(r.rule) && r.rule.target != []
      && r.rule.target == Bounded(f[3], TARGET_SIZE)
      && r.rule.description == (if |f| >= 5 then Bounded(f[4], DESCRIPTION_SIZE) else "")
    ensures !r.Parsed? ==> r.Bad?
  {
    if |f| < 1 then Bad
    else match ProcCategory(f[0])
    case None => Bad
    case Some(category) =>
      if |f| < 2 then Bad
      else match ProcAction(f[1])
      case None => Bad
      case Some(action) =>
        if |f| < 3 then Bad
        else match KStrToU32(f[2])
        case None => Bad
        case Some(priority) =>
          if |f| < 4 then Bad
          else
            var target := Bounded(f[3], TARGET_SIZE);
            var description := if |f| >= 5 then Bounded(f[4], DESCRIPTION_SIZE) else "";
            Parsed(Rule(0, category, action, priority, target, description))
  }

  /** The rule a line denotes, before it is handed to the store. */
  function ParseLine(line: string): (r: LineParse)
    ensures r.Skip? <==> IsSkipped(line)
    ensures !IsSkipped(line) ==> (r.Parsed? <==> FieldsOk(Fields(line)))
    ensures !IsSkipped(line) ==> r == ParseFields(Fields(line))
    ensures r.Parsed? ==> FitsFields(r.rule) && r.rule.target != [] && r.rule.ruleId == 0
  {
    if IsSkipped(line) then Skip else ParseFields(Fields(line))
  }

  /** Fields after the fifth do not change what a line means. */
  lemma ExtraFieldsIgnored(f: seq<string>)
    requires |f| > 5 && forall i :: 0 <= i < |f| ==> f[i] != []
    ensures ParseFields(f) == ParseFields(f[..5])
  {
  }

  /** `hips_parse_rule_line`: the line's rule is added, or nothing happens. */
  function ParseRuleLine(s: Store, line: string): (r: (Store, int))
    ensures ParseLine(line).Skip? ==> r == (s, 0)
    ensures ParseLine(line).Bad? ==> r == (s, -EINVAL)
    ensures ParseLine(line).Parsed? ==>
      var rule := ParseLine(line).rule;
      && r.1 == SUCCESS
      && r.0.counter == NextId(s.counter)
      && Bucket(r.0, rule.ruleType) == Bucket(s, rule.ruleType) + [Entry(rule.(ruleId := r.0.counter), 1)]
      && forall u :: IsCategory(u) && u != rule.ruleType ==> Bucket(r.0, u) == Bucket(s, u)
  {
    match ParseLine(line)
    case Skip => (s, 0)
    case Bad => (s, -EINVAL)
    case Parsed(rule) =>
      var a := AddRule(s, rule);
      (a.store, a.code)
  }

  // ---------------------------------------------------------------- rendering, the inverse

  function CategoryWord(t: u32): string
    requires IsCategory(t)
  {
    if t == RULE_EXEC then "exec" else if t == RULE_DNS then "dns" else "network"
  }

  function ActionWord(a: u32): string
    requires IsAction(a)
  {
    if a == ACTION_BLOCK then "block" else if a == ACTION_ALLOW then "allow" else "log"
  }

  /** A rule whose text fields can be written on one line of the format. */
  predicate Writable(rule: Rule) {
    && IsCategory(rule.ruleType) && IsAction(rule.action) && FitsFields(rule)
    && IsField(rule.target, '|') && '\n' !in rule.target
    && '|' !in rule.description && '\n' !in rule.description
  }

  /** The line that describes `rule`; the description field is left out when empty. */
  function RuleLine(rule: Rule): string
    requires Writable(rule)
  {
    Join(RuleFields(rule), '|')
  }

  lemma KeywordsRead(rule: Rule)
    requires IsCategory(rule.ruleType) && IsAction(rule.action)
    ensures ProcCategory(CategoryWord(rule.ruleType)) == Some(rule.ruleType)
    ensures ProcAction(ActionWord(rule.action)) == Some(rule.action)
  {
  }

  /** The fields a rule is written as. */
  function RuleFields(rule: Rule): (fs: seq<string>)
    requires Writable(rule)
    ensures forall i :: 0 <= i < |fs| ==> IsField(fs[i], '|')
  {
    var head := [CategoryWord(rule.ruleType), ActionWord(rule.action), Decimal(rule.priority), rule.target];
    if rule.description == [] then head else head + [rule.description]
  }

  lemma FieldsOfRuleParse(rule: Rule)
    requires Writable(rule)
    ensures ParseFields(RuleFields(rule)) == Parsed(rule.(ruleId := 0))
  {
    KStrToU32OfDecimal(rule.priority);
    KeywordsRead(rule);
  }

  /** Parsing the line a rule is written as gives back the rule, with id 0. */
  lemma ParseRuleLineRoundTrip(rule: Rule)
    requires Writable(rule)
    ensures ParseLine(RuleLine(rule)) == Parsed(rule.(ruleId := 0))
  {
    var fs := RuleFields(rule);
    var line := Join(fs, '|');
    assert line == RuleLine(rule);
    TokensOfJoin(fs, '|');
    assert line[..|fs[0]|] == fs[0];
    SkipBlanksStopsAt(line);
    assert Fields(line) == fs;
    FieldsOfRuleParse(rule);
  }

  lemma SkipBlanksStopsAt(line: string)
    requires line != [] && line[0] != ' ' && line[0] != '\t'
    ensures SkipBlanks(line) == line
  {
  }

  // ---------------------------------------------------------------- a whole write

  /** Position of the first line that fails to parse, or the number of lines. */
  function FirstBad(lines: seq<string>): (k: nat)
    ensures k <= |lines|
    ensures forall i :: 0 <= i < k ==> !ParseLine(lines[i]).Bad?
    ensures k < |lines| ==> ParseLine(lines[k]).Bad?
  {
    if lines == [] then 0
    else if ParseLine(lines[0]).Bad? then 0
    else 1 + FirstBad(lines[1..])
  }

  /** How many of `lines` carry a rule. */
  function RuleCount(lines: seq<string>): nat {
    if lines == [] then 0
    else (if ParseLine(lines[0]).Parsed? then 1 else 0) + RuleCount(lines[1..])
  }

  /** The `strtok_r` loop of `hips_parse_rules_command` over the lines. */
  function ApplyLines(s: Store, lines: seq<string>): (r: (Store, int))
    ensures r.1 == 0 || r.1 == -EINVAL
    ensures r.1 == -EINVAL ==> lines != []
    decreases |lines|
  {
    if lines == [] then (s, 0)
    else
      var (s1, c) := ParseRuleLine(s, lines[0]);
      if c < 0 then (s1, c) else ApplyLines(s1, lines[1..])
  }

  /** Every list only grows at its tail: nothing an earlier line added is taken back. */
  ghost predicate Extends(s: Store, s': Store) {
    s.exec <= s'.exec && s.dns <= s'.dns && s.network <= s'.network
  }

  /** The loop reports `-EINVAL` exactly when some line is bad, and 0 otherwise. */
  lemma {:induction false} ApplyLinesCode(s: Store, lines: seq<string>)
    ensures ApplyLines(s, lines).1 == (if FirstBad(lines) < |lines| then -EINVAL else 0)
    decreases |lines|
  {
    if lines != [] && !ParseLine(lines[0]).Bad? {
      ApplyLinesCode(ParseRuleLine(s, lines[0]).0, lines[1..]);
    }
  }

  /** The loop stops at the first bad line: the lines after it are never looked at. */
  lemma {:induction false} ApplyLinesStopsAtFirstBad(s: Store, lines: seq<string>)
    ensures ApplyLines(s, lines).0 == ApplyLines(s, lines[..FirstBad(lines)]).0
    decreases |lines|
  {
    if lines != [] {
      if ParseLine(lines[0]).Bad? {
        assert lines[..0] == [];
      } else {
        var k := FirstBad(lines);
        ApplyLinesStopsAtFirstBad(ParseRuleLine(s, lines[0]).0, lines[1..]);
        assert lines[..k][1..] == lines[1..][..k - 1];
        assert lines[..k][0] == lines[0];
        ApplyLinesOfGoodHead(s, lines);
        ApplyLinesOfGoodHead(s, lines[..k]);
      }
    }
  }

  /**
   Nothing is rolled back: every list only grows at its tail, by one rule
   per rule line applied, and the id counter advances once per such rule.
   */
  lemma {:induction false} ApplyLinesGrows(s: Store, lines: seq<string>)
    ensures Extends(s, ApplyLines(s, lines).0)
    ensures Size(ApplyLines(s, lines).0) == Size(s) + RuleCount(lines[..FirstBad(lines)])
    decreases |lines|
  {
    if lines == [] || ParseLine(lines[0]).Bad? {
      ApplyLinesOfBadHead(s, lines);
    } else {
      var s1 := ParseRuleLine(s, lines[0]).0;
      ParseRuleLineGrows(s, lines[0]);
      ApplyLinesOfGoodHead(s, lines);
      ApplyLinesGrows(s1, lines[1..]);
      CountStep(lines);
    }
  }

  /** One good line appends at most one rule at a tail and removes nothing. */
  lemma ParseRuleLineGrows(s: Store, line: string)
    requires !ParseLine(line).Bad?
    ensures Extends(s, ParseRuleLine(s, line).0)
    ensures Size(ParseRuleLine(s, line).0) == Size(s) + (if ParseLine(line).Parsed? then 1 else 0)
  {
    var p := ParseLine(line);
    var s1 := ParseRuleLine(s, line).0;
    if p.Parsed? {
      assert Bucket(s1, p.rule.ruleType) == Bucket(s, p.rule.ruleType) + [Entry(p.rule.(ruleId := s1.counter), 1)];
    }
  }

  /** One good line at the head: it is counted once if it carries a rule. */
  lemma CountStep(lines: seq<string>)
    requires lines != [] && !ParseLine(lines[0]).Bad?
    ensures FirstBad(lines) == 1 + FirstBad(lines[1..])
    ensures RuleCount(lines[..FirstBad(lines)])
         == (if ParseLine(lines[0]).Parsed? then 1 else 0) + RuleCount(lines[1..][..FirstBad(lines[1..])])
  {
    FirstBadStep(lines);
    RuleCountOfHead(lines, FirstBad(lines));
  }

  lemma FirstBadStep(lines: seq<string>)
    requires lines != [] && !ParseLine(lines[0]).Bad?
    ensures FirstBad(lines) == 1 + FirstBad(lines[1..])
  {
  }

  lemma RuleCountOfHead(lines: seq<string>, k: nat)
    requires 1 <= k <= |lines|
    ensures RuleCount(lines[..k]) == (if ParseLine(lines[0]).Parsed? then 1 else 0) + RuleCount(lines[1..][..k - 1])
  {
    assert lines[..k][0] == lines[0];
    assert lines[..k][1..] == lines[1..][..k - 1];
    RuleCountCons(lines[..k]);
  }

  lemma RuleCountCons(lines: seq<string>)
    requires lines != []
    ensures RuleCount(lines) == (if ParseLine(lines[0]).Parsed? then 1 else 0) + RuleCount(lines[1..])
  {
  }

  /** The counter after `n` wrapping increments. */
  function Advance(c: u32, n: nat): u32 {
    (c + n) % U32_LIMIT
  }

  lemma AdvanceZero(c: u32)
    ensures Advance(c, 0) == c
  {
  }

  lemma AdvanceStep(c: u32, n: nat)
    ensures Advance(NextId(c), n) == Advance(c, n + 1)
  {
    var a := c + 1;
    var q := a / U32_LIMIT;
    assert a == q * U32_LIMIT + a % U32_LIMIT;
    assert a + n == (a % U32_LIMIT + n) + q * U32_LIMIT;
  }

  /** One line moves the id counter once if it carries a rule, and not at all otherwise. */
  lemma ParseRuleLineCounter(s: Store, line: string)
    requires !ParseLine(line).Bad?
    ensures ParseRuleLine(s, line).1 >= 0
    ensures ParseRuleLine(s, line).0.counter
         == if ParseLine(line).Parsed? then NextId(s.counter) else s.counter
  {
  }

  /** A list that is empty or starts with a bad line leaves the store alone. */
  lemma ApplyLinesOfBadHead(s: Store, lines: seq<string>)
    requires lines == [] || ParseLine(lines[0]).Bad?
    ensures ApplyLines(s, lines).0 == s
    ensures RuleCount(lines[..FirstBad(lines)]) == 0
  {
    assert lines[..FirstBad(lines)] == [];
  }

  /** A good first line is applied and the loop goes on with the rest. */
  lemma ApplyLinesOfGoodHead(s: Store, lines: seq<string>)
    requires lines != [] && !ParseLine(lines[0]).Bad?
    ensures ApplyLines(s, lines) == ApplyLines(ParseRuleLine(s, lines[0]).0, lines[1..])
  {
    ParseRuleLineCounter(s, lines[0]);
  }

  /** The id counter as the loop moves it: once per rule line, up to the first bad line. */
  function CounterAfter(c: u32, lines: seq<string>): u32
    decreases |lines|
  {
    if lines == [] || ParseLine(lines[0]).Bad? then c
    else CounterAfter(if ParseLine(lines[0]).Parsed? then NextId(c) else c, lines[1..])
  }

  lemma {:induction false} ApplyLinesCounterAfter(s: Store, lines: seq<string>)
    ensures ApplyLines(s, lines).0.counter == CounterAfter(s.counter, lines)
    decreases |lines|
  {
    if lines == [] || ParseLine(lines[0]).Bad? {
      ApplyLinesOfBadHead(s, lines);
    } else {
      ParseRuleLineCounter(s, lines[0]);
      ApplyLinesOfGoodHead(s, lines);
      ApplyLinesCounterAfter(ParseRuleLine(s, lines[0]).0, lines[1..]);
    }
  }

  lemma {:induction false} CounterAfterAdvance(c: u32, lines: seq<string>)
    ensures CounterAfter(c, lines) == Advance(c, RuleCount(lines[..FirstBad(lines)]))
    decreases |lines|
  {
    if lines == [] || ParseLine(lines[0]).Bad? {
      assert lines[..FirstBad(lines)] == [];
      AdvanceZero(c);
    } else {
      var parsed := ParseLine(lines[0]).Parsed?;
      var c1 := if parsed then NextId(c) else c;
      CounterAfterAdvance(c1, lines[1..]);
      var n := RuleCount(lines[1..][..FirstBad(lines[1..])]);
      CountStep(lines);
      CounterAfterLine(c, c1, n, parsed);
    }
  }

  /** The id counter advances once per rule line applied, wrapping at 32 bits. */
  lemma ApplyLinesCounter(s: Store, lines: seq<string>)
    ensures ApplyLines(s, lines).0.counter == Advance(s.counter, RuleCount(lines[..FirstBad(lines)]))
  {
    ApplyLinesCounterAfter(s, lines);
    CounterAfterAdvance(s.counter, lines);
  }

  /** The counter after one line and `n` more rules, counted from before the line. */
  lemma CounterAfterLine(c0: u32, c1: u32, n: nat, parsed: bool)
    requires c1 == if parsed then NextId(c0) else c0
    ensures Advance(c1, n) == Advance(c0, (if parsed then 1 else 0) + n)
  {
    if parsed {
      AdvanceStep(c0, n);
    }
  }

  /** `hips_parse_rules_command`: the buffer read as a C string, split at newlines. */
  function ParseRulesCommand(s: Store, data: string): (r: (Store, int))
    ensures r.1 == 0 || r.1 == -EINVAL
    ensures var lines := Tokens(CStr(data), '\n'); r.1 == 0 <==> FirstBad(lines) == |lines|
  {
    var lines := Tokens(CStr(data), '\n');
    ApplyLinesCode(s, lines);
    ApplyLines(s, lines)
  }

  /**
   `hips_rules_write`: a write longer than 4096 bytes is refused whole; any
   other write is parsed and, unless a line fails, reports all its bytes as
   consumed.
   */
  function RulesWrite(s: Store, data: string): (r: (Store, int))
    ensures |data| > WRITE_MAX ==> r == (s, -EINVAL)
    ensures |data| <= WRITE_MAX ==> r.0 == ParseRulesCommand(s, data).0
    ensures r.1 >= 0 ==> r.1 == |data| && |data| <= WRITE_MAX
    ensures r.1 < 0 ==> r.1 == -EINVAL
    ensures |data| <= WRITE_MAX ==>
      var lines := Tokens(CStr(data), '\n');
      r.1 == |data| <==> FirstBad(lines) == |lines|
  {
    if |data| > WRITE_MAX then (s, -EINVAL)
    else
      var (s', ret) := ParseRulesCommand(s, data);
      (s', if ret < 0 then ret else |data|)
  }

  /**
   Rules that arrive through this front end never have an empty pattern, so
   the matcher stays defined on every target.
   */
  lemma {:induction false} ApplyLinesKeepsPatternsNonEmpty(s: Store, lines: seq<string>)
    requires PatternsNonEmpty(s)
    ensures PatternsNonEmpty(ApplyLines(s, lines).0)
    decreases |lines|
  {
    if lines != [] {
      ParseRuleLineKeepsPatternsNonEmpty(s, lines[0]);
      var (s1, c) := ParseRuleLine(s, lines[0]);
      if c >= 0 {
        ApplyLinesKeepsPatternsNonEmpty(s1, lines[1..]);
      }
    }
  }

  lemma ParseRuleLineKeepsPatternsNonEmpty(s: Store, line: string)
    requires PatternsNonEmpty(s)
    ensures PatternsNonEmpty(ParseRuleLine(s, line).0)
  {
    var p := ParseLine(line);
    if p.Parsed? {
      assert ParseRuleLine(s, line).0 == AddRule(s, p.rule).store;
      AddKeepsPatternsNonEmpty(s, p.rule);
    }
  }

  lemma {:induction false} ApplyLinesKeepsWf(s: Store, lines: seq<string>)
    requires Wf(s)
    ensures Wf(ApplyLines(s, lines).0)
    decreases |lines|
  {
    if lines != [] {
      var (s1, c) := ParseRuleLine(s, lines[0]);
      if ParseLine(lines[0]).Parsed? {
        AddPreservesWf(s, ParseLine(lines[0]).rule);
      }
      if c >= 0 {
        ApplyLinesKeepsWf(s1, lines[1..]);
      }
    }
  }
}

=== FILE: rule_store.dfy ===
/**
 The rule store and matcher of the module (`hips_add_rule`, `hips_del_rule`,
 `hips_get_rule`, `hips_match_rule`, `hips_match_pattern`,
 `hips_cleanup_rules`, `hips_reload_config`).

 The store is three insertion-ordered lists, one per rule category, plus the
 counter that hands out rule ids. The model treats each operation as one
 atomic transition from store to store. This is a modelling choice: the
 module's spinlock guards the list updates and walks, but the id counter bump
 and the reference-count wait of `hips_del_rule` run outside it.
 */
module RuleStore {
  import opened HipsTypes

  /** `struct hips_rule_entry`: a stored rule and its reference count. */
  datatype Entry = Entry(rule: Rule, refCount: nat)

  /** The rule lists of `struct hips_global_config` and `rule_id_counter`. */
  datatype Store = Store(exec: seq<Entry>, dns: seq<Entry>, network: seq<Entry>, counter: u32)

  /** The store at module load: no rules, counter at `ATOMIC_INIT(0)`. */
  const Initial: Store := Store([], [], [], 0)

  /** The list that holds rules of category `t`. */
  function Bucket(s: Store, t: u32): seq<Entry>
    requires IsCategory(t)
  {
    if t == RULE_EXEC then s.exec else if t == RULE_DNS then s.dns else s.network
  }

  function WithBucket(s: Store, t: u32, l: seq<Entry>): (s': Store)
    requires IsCategory(t)
    ensures Bucket(s', t) == l && s'.counter == s.counter
    ensures forall u :: IsCategory(u) && u != t ==> Bucket(s', u) == Bucket(s, u)
  {
    if t == RULE_EXEC then s.(exec := l) else if t == RULE_DNS then s.(dns := l) else s.(network := l)
  }

  /** Two stores hold the same lists (the counter may differ). */
  predicate SameLists(s: Store, s': Store) {
    s.exec == s'.exec && s.dns == s'.dns && s.network == s'.network
  }

  function Size(s: Store): nat {
    |s.exec| + |s.dns| + |s.network|
  }

  predicate BucketWf(l: seq<Entry>, t: u32) {
    forall i :: 0 <= i < |l| ==> l[i].rule.ruleType == t && l[i].refCount >= 1
  }

  /**
   The store invariant: every entry sits in the list of its own category and
   holds at least the store's own reference.
   */
  predicate Wf(s: Store) {
    BucketWf(s.exec, RULE_EXEC) && BucketWf(s.dns, RULE_DNS) && BucketWf(s.network, RULE_NETWORK)
  }

  /** `atomic_inc_return` on the counter, wrapping at 32 bits. */
  function NextId(c: u32): (n: u32)
    ensures c < U32_LIMIT - 1 ==> n == c + 1
    ensures c == U32_LIMIT - 1 ==> n == 0
  {
    (c + 1) % U32_LIMIT
  }

  // ---------------------------------------------------------------- add

  /** What `hips_add_rule` leaves behind: the store, the status, and the
      caller's rule record (into which an assigned id is written back). */
  datatype AddOutcome = AddOutcome(store: Store, code: int, rule: Rule)

  /**
   `hips_add_rule`. A zero id is replaced by the next counter value, and this
   happens before the category is checked, so a rejected rule still consumes
   an id. A non-zero id is kept as given, duplicates included.
   */
  function AddRule(s: Store, rule: Rule): (r: AddOutcome)
    ensures rule.ruleId == 0 ==> r.store.counter == NextId(s.counter) && r.rule == rule.(ruleId := r.store.counter)
    ensures rule.ruleId != 0 ==> r.store.counter == s.counter && r.rule == rule
    ensures r.code == SUCCESS <==> IsCategory(rule.ruleType)
    ensures r.code != SUCCESS ==> r.code == ERROR_INVALID && SameLists(r.store, s)
    ensures r.code == SUCCESS ==>
      && Bucket(r.store, rule.ruleType) == Bucket(s, rule.ruleType) + [Entry(r.rule, 1)]
      && forall u :: IsCategory(u) && u != rule.ruleType ==> Bucket(r.store, u) == Bucket(s, u)
  {
    var counter := if rule.ruleId == 0 then NextId(s.counter) else s.counter;
    var stored := if rule.ruleId == 0 then rule.(ruleId := counter) else rule;
    var s1 := s.(counter := counter);
    if !IsCategory(rule.ruleType) then
      AddOutcome(s1, ERROR_INVALID, stored)
    else
      var t := rule.ruleType;
      AddOutcome(WithBucket(s1, t, Bucket(s1, t) + [Entry(stored, 1)]), SUCCESS, stored)
  }

  lemma AddPreservesWf(s: Store, rule: Rule)
    requires Wf(s)
    ensures Wf(AddRule(s, rule).store)
    ensures Size(AddRule(s, rule).store) == Size(s) + (if IsCategory(rule.ruleType) then 1 else 0)
  {
  }

  /** Auto-assigned ids start at 1 and strictly increase until the counter wraps. */
  lemma AutoIdIncreases(s: Store, rule: Rule)
    requires rule.ruleId == 0 && s.counter < U32_LIMIT - 1
    ensures AddRule(s, rule).rule.ruleId == s.counter + 1 >= 1
    ensures AddRule(s, rule).store.counter > s.counter
  {
  }

  /** After module load the first rule added without an id gets id 1. */
  lemma FirstAutoIdIsOne(rule: Rule)
    requires rule.ruleId == 0
    ensures Wf(Initial) && Size(Initial) == 0
    ensures AddRule(Initial, rule).rule.ruleId == 1
  {
  }

  // ---------------------------------------------------------------- pattern

  /** The prefix test of the source's trailing-`*` branch. */
  predicate StarPrefixHolds(pattern: string, str: string) {
    1 <= |pattern| && |pattern| - 1 <= |str| && str[..|pattern| - 1] == pattern[..|pattern| - 1]
  }

  /** `hips_match_pattern` is defined: an empty pattern is only compared with
      an empty string (otherwise the source reads `pattern[-1]`). */
  predicate PatternDefined(pattern: string, str: string) {
    pattern != [] || str == []
  }

  /** The `return` of `hips_match_pattern` that a call reaches. */
  datatype PatternExit = ExactEqual | WildcardRejected | PrefixTest | Fallthrough

  /** Which branch of `hips_match_pattern` decides, tested in source order. */
  function PatternExitOf(pattern: string, str: string): PatternExit
    requires PatternDefined(pattern, str)
  {
    if pattern == str then ExactEqual
    else if '*' in pattern || '?' in pattern then WildcardRejected
    else if pattern[|pattern| - 1] == '*' then PrefixTest
    else Fallthrough
  }

  /**
   `hips_match_pattern` as written. Any pattern with `*` or `?` that is not
   equal to the string is rejected before the trailing-`*` test, so that
   test never succeeds: the pattern matches exactly when it equals the string.
   */
  function MatchPattern(pattern: string, str: string): (m: bool)
    requires PatternDefined(pattern, str)
    ensures m <==> pattern == str
  {
    match PatternExitOf(pattern, str)
    case ExactEqual => true
    case WildcardRejected => false
    case PrefixTest => StarPrefixHolds(pattern, str)
    case Fallthrough => false
  }

  /**
   The trailing-`*` branch is dead: a pattern that reaches it has passed
   the wildcard test, so it holds no `*` and cannot end in one. The match
   is decided by the equality test alone.
   */
  lemma PrefixBranchUnreachable(pattern: string, str: string)
    requires PatternDefined(pattern, str)
    ensures PatternExitOf(pattern, str) != PrefixTest
    ensures MatchPattern(pattern, str) <==> PatternExitOf(pattern, str) == ExactEqual
  {
    if pattern != str && pattern != [] && pattern[|pattern| - 1] == '*' {
      assert '*' in pattern;
    }
  }

  /** A trailing-`*` pattern does not match a longer string that it prefixes. */
  lemma StarPatternMatchesOnlyItself(pattern: string, str: string)
    requires pattern != [] && pattern[|pattern| - 1] == '*'
    requires StarPrefixHolds(pattern, str) && pattern != str
    ensures !MatchPattern(pattern, str)
  {
  }

  // ---------------------------------------------------------------- match

  /** `e` is a rule of category `t` whose pattern matches `target`. */
  predicate Exact(e: Entry, t: u32, target: string) {
    e.rule.ruleType == t && e.rule.target == target
  }

  /** `k` is the first entry of `l` that matches. */
  ghost predicate IsFirstExact(l: seq<Entry>, t: u32, target: string, k: int) {
    0 <= k < |l| && Exact(l[k], t, target) && forall j :: 0 <= j < k ==> !Exact(l[j], t, target)
  }

  /** Outcome of walking one list: a hit, the end of the list, or an entry
      for which the pattern comparison is undefined. */
  datatype Scan = Hit(index: nat) | Miss | Undefined

  /** The `list_for_each_entry` walk of `hips_match_rule`, from position `i`. */
  function ScanFrom(l: seq<Entry>, t: u32, target: string, i: nat): (r: Scan)
    requires i <= |l|
    ensures r.Hit? ==>
      && i <= r.index < |l| && Exact(l[r.index], t, target)
      && forall j :: i <= j < r.index ==> !Exact(l[j], t, target)
    ensures r.Miss? ==> forall j :: i <= j < |l| ==> !Exact(l[j], t, target)
    ensures r.Undefined? ==> target != [] && exists j :: i <= j < |l| && l[j].rule.ruleType == t && l[j].rule.target == []
    decreases |l| - i
  {
    if i == |l| then Miss
    else if l[i].rule.ruleType == t then
      if !PatternDefined(l[i].rule.target, target) then Undefined
      else if MatchPattern(l[i].rule.target, target) then Hit(i)
      else ScanFrom(l, t, target, i + 1)
    else ScanFrom(l, t, target, i + 1)
  }

  /** The walk is defined whenever no rule of the category has an empty pattern. */
  lemma {:induction false} ScanDefined(l: seq<Entry>, t: u32, target: string, i: nat)
    requires i <= |l|
    requires forall j :: i <= j < |l| && l[j].rule.ruleType == t ==> l[j].rule.target != []
    ensures !ScanFrom(l, t, target, i).Undefined?
    decreases |l| - i
  {
    if i < |l| {
      ScanDefined(l, t, target, i + 1);
    }
  }

  /** `hips_match_rule` never reaches an undefined pattern comparison. */
  predicate MatchDefined(s: Store, t: u32, target: string) {
    IsCategory(t) ==> !ScanFrom(Bucket(s, t), t, target, 0).Undefined?
  }

  /** Every stored rule has a non-empty pattern. */
  predicate PatternsNonEmpty(s: Store) {
    && (forall i :: 0 <= i < |s.exec| ==> s.exec[i].rule.target != [])
    && (forall i :: 0 <= i < |s.dns| ==> s.dns[i].rule.target != [])
    && (forall i :: 0 <= i < |s.network| ==> s.network[i].rule.target != [])
  }

  /** Adding a rule with a non-empty pattern keeps every pattern non-empty. */
  lemma AddKeepsPatternsNonEmpty(s: Store, rule: Rule)
    requires PatternsNonEmpty(s) && rule.target != []
    ensures PatternsNonEmpty(AddRule(s, rule).store)
  {
    var a := AddRule(s, rule);
    if a.code == SUCCESS {
      assert Bucket(a.store, rule.ruleType) == Bucket(s, rule.ruleType) + [Entry(a.rule, 1)];
    }
  }

  lemma MatchDefinedWhenPatternsNonEmpty(s: Store, t: u32, target: string)
    requires PatternsNonEmpty(s)
    ensures MatchDefined(s, t, target)
  {
    if IsCategory(t) {
      ScanDefined(Bucket(s, t), t, target, 0);
    }
  }

  /** `s'` is `s` with the reference count of entry `k` of list `t` raised by one. */
  ghost predicate BumpedAt(s: Store, s': Store, t: u32, k: int)
    requires IsCategory(t)
  {
    && s'.counter == s.counter
    && (forall u :: IsCategory(u) && u != t ==> Bucket(s', u) == Bucket(s, u))
    && |Bucket(s', t)| == |Bucket(s, t)|
    && 0 <= k < |Bucket(s, t)|
    && (forall j :: 0 <= j < |Bucket(s, t)| ==> Bucket(s', t)[j].rule == Bucket(s, t)[j].rule)
    && (forall j :: 0 <= j < |Bucket(s, t)| && j != k ==> Bucket(s', t)[j].refCount == Bucket(s, t)[j].refCount)
    && Bucket(s', t)[k].refCount == Bucket(s, t)[k].refCount + 1
  }

  datatype MatchOutcome = MatchOutcome(store: Store, code: int, matched: Option<Rule>)

  /**
   `hips_match_rule`: the first rule of the category's list, in insertion
   order, whose pattern matches. A hit takes a reference on that entry; it
   is never given back.
   */
  function MatchRule(s: Store, t: u32, target: string): (r: MatchOutcome)
    requires MatchDefined(s, t, target)
    ensures !IsCategory(t) ==> r == MatchOutcome(s, ERROR_INVALID, None)
    ensures IsCategory(t) ==>
      && (r.code == SUCCESS <==> exists k :: IsFirstExact(Bucket(s, t), t, target, k))
      && (r.code != SUCCESS ==> r == MatchOutcome(s, ERROR_NOT_FOUND, None))
      && (forall k :: IsFirstExact(Bucket(s, t), t, target, k) ==>
            && r.code == SUCCESS
            && r.matched == Some(Bucket(s, t)[k].rule)
            && BumpedAt(s, r.store, t, k))
  {
    if !IsCategory(t) then MatchOutcome(s, ERROR_INVALID, None)
    else
      var l := Bucket(s, t);
      match ScanFrom(l, t, target, 0)
      case Hit(k) =>
        assert IsFirstExact(l, t, target, k);
        MatchOutcome(WithBucket(s, t, l[k := l[k].(refCount := l[k].refCount + 1)]), SUCCESS, Some(l[k].rule))
      case Miss => MatchOutcome(s, ERROR_NOT_FOUND, None)
  }

  lemma MatchPreservesWf(s: Store, t: u32, target: string)
    requires Wf(s) && MatchDefined(s, t, target)
    ensures Wf(MatchRule(s, t, target).store)
    ensures Size(MatchRule(s, t, target).store) == Size(s)
  {
    if IsCategory(t) && MatchRule(s, t, target).code == SUCCESS {
      var k := ScanFrom(Bucket(s, t), t, target, 0).index;
      assert IsFirstExact(Bucket(s, t), t, target, k);
    }
  }

  /** First match wins: a later rule with the same pattern never shadows an earlier one. */
  lemma FirstInsertedWins(s: Store, rule: Rule, target: string)
    requires IsCategory(rule.ruleType) && MatchDefined(s, rule.ruleType, target)
    requires exists k :: IsFirstExact(Bucket(s, rule.ruleType), rule.ruleType, target, k)
    ensures MatchDefined(AddRule(s, rule).store, rule.ruleType, target)
    ensures MatchRule(AddRule(s, rule).store, rule.ruleType, target).matched
         == MatchRule(s, rule.ruleType, target).matched
  {
    var t := rule.ruleType;
    var k :| IsFirstExact(Bucket(s, t), t, target, k);
    var s' := AddRule(s, rule).store;
    assert Bucket(s', t)[..|Bucket(s, t)|] == Bucket(s, t);
    assert IsFirstExact(Bucket(s', t), t, target, k);
    var sc0 := ScanFrom(Bucket(s, t), t, target, 0);
    assert sc0.Hit? && sc0.index == k;
    ScanExtend(Bucket(s, t), [Entry(AddRule(s, rule).rule, 1)], t, target, 0);
  }

  /** A walk that stops at a hit does not look past it: appending entries changes nothing. */
  lemma {:induction false} ScanExtend(l: seq<Entry>, extra: seq<Entry>, t: u32, target: string, i: nat)
    requires i <= |l| && ScanFrom(l, t, target, i).Hit?
    ensures ScanFrom(l + extra, t, target, i) == ScanFrom(l, t, target, i)
    decreases |l| - i
  {
    assert (l + extra)[i] == l[i];
    if ScanFrom(l, t, target, i).index != i {
      ScanExtend(l, extra, t, target, i + 1);
    }
  }

  // ---------------------------------------------------------------- lookup by id

  predicate HasIdIn(l: seq<Entry>, id: u32) {
    exists i :: 0 <= i < |l| && l[i].rule.ruleId == id
  }

  predicate HasId(s: Store, id: u32) {
    HasIdIn(s.exec, id) || HasIdIn(s.dns, id) || HasIdIn(s.network, id)
  }

  /**
   Entry `k` of list `t` is the one a scan of exec, then dns, then network,
   each in insertion order, reaches first with id `id` (the category numbers
   follow the scan order).
   */
  ghost predicate FirstWithId(s: Store, id: u32, t: u32, k: int) {
    && IsCategory(t)
    && 0 <= k < |Bucket(s, t)|
    && Bucket(s, t)[k].rule.ruleId == id
    && (forall j :: 0 <= j < k ==> Bucket(s, t)[j].rule.ruleId != id)
    && (forall u: u32 :: IsCategory(u) && u < t ==> !HasIdIn(Bucket(s, u), id))
  }

  /** The first position of `id` in `l` at or after `i`. */
  function IdFrom(l: seq<Entry>, id: u32, i: nat): (r: Option<nat>)
    requires i <= |l|
    ensures r.Some? ==>
      && i <= r.value < |l| && l[r.value].rule.ruleId == id
      && forall j :: i <= j < r.value ==> l[j].rule.ruleId != id
    ensures r.None? ==> forall j :: i <= j < |l| ==> l[j].rule.ruleId != id
    decreases |l| - i
  {
    if i == |l| then None
    else if l[i].rule.ruleId == id then Some(i)
    else IdFrom(l, id, i + 1)
  }

  /** Where the exec→dns→network scan finds `id`, if anywhere. */
  function LocateId(s: Store, id: u32): (r: Option<(u32, nat)>)
    ensures r.None? <==> !HasId(s, id)
    ensures r.Some? ==> FirstWithId(s, id, r.value.0, r.value.1)
  {
    match IdFrom(s.exec, id, 0)
    case Some(k) => Some((RULE_EXEC, k))
    case None =>
      match IdFrom(s.dns, id, 0)
      case Some(k) => Some((RULE_DNS, k))
      case None =>
        match IdFrom(s.network, id, 0)
        case Some(k) => Some((RULE_NETWORK, k))
        case None => None
  }

  lemma FirstWithIdUnique(s: Store, id: u32, t: u32, k: int, t': u32, k': int)
    requires FirstWithId(s, id, t, k) && FirstWithId(s, id, t', k')
    ensures t == t' && k == k'
  {
    if t < t' {
      assert HasIdIn(Bucket(s, t), id);
    } else if t' < t {
      assert HasIdIn(Bucket(s, t'), id);
    }
  }

  /**
   `hips_get_rule`: a copy of the first rule with the id, in exec, dns,
   network order. The store is an input only, so nothing is changed.
   */
  function GetRule(s: Store, id: u32): (r: Option<Rule>)
    ensures r.None? <==> !HasId(s, id)
    ensures forall t, k :: FirstWithId(s, id, t, k) ==> r == Some(Bucket(s, t)[k].rule)
  {
    match LocateId(s, id)
    case Some((t, k)) =>
      assert forall t', k' :: FirstWithId(s, id, t', k') ==> t' == t && k' == k by {
        forall t', k' | FirstWithId(s, id, t', k') {
          FirstWithIdUnique(s, id, t, k, t', k');
        }
      }
      Some(Bucket(s, t)[k].rule)
    case None => None
  }

  /** The status code `hips_get_rule` returns: success with a copy, or not found. */
  function GetRuleCode(s: Store, id: u32): (code: int)
    ensures code == SUCCESS <==> HasId(s, id)
    ensures code == ERROR_NOT_FOUND <==> !HasId(s, id)
  {
    if GetRule(s, id).Some? then SUCCESS else ERROR_NOT_FOUND
  }

  // ---------------------------------------------------------------- delete

  /**
   How `hips_del_rule` ends. After unlinking the entry it spins until the
   reference count is at most 1; since no path ever lowers the count, an
   entry with a larger count keeps the caller spinning for ever.
   */
  datatype DelStatus = Deleted | Absent | NeverReturns

  datatype DelOutcome = DelOutcome(store: Store, status: DelStatus)


  function RemoveAt(l: seq<Entry>, k: nat): (r: seq<Entry>)
    requires k < |l|
    ensures |r| == |l| - 1
    ensures forall j :: 0 <= j < k ==> r[j] == l[j]
    ensures forall j :: k <= j < |r| ==> r[j] == l[j + 1]
  {
    l[..k] + l[k + 1..]
  }

  /** `hips_del_rule`. */
  function DelRule(s: Store, id: u32): (r: DelOutcome)
    ensures r.status.Absent? <==> !HasId(s, id)
    ensures r.status.Absent? ==> r.store == s
    ensures forall t, k :: FirstWithId(s, id, t, k) ==>
      && r.store == WithBucket(s, t, RemoveAt(Bucket(s, t), k))
      && (r.status.Deleted? <==> Bucket(s, t)[k].refCount <= 1)
      && (r.status.NeverReturns? <==> Bucket(s, t)[k].refCount > 1)
  {
    match LocateId(s, id)
    case Some((t, k)) =>
      assert forall t', k' :: FirstWithId(s, id, t', k') ==> t' == t && k' == k by {
        forall t', k' | FirstWithId(s, id, t', k') {
          FirstWithIdUnique(s, id, t, k, t', k');
        }
      }
      var l := Bucket(s, t);
      DelOutcome(WithBucket(s, t, RemoveAt(l, k)), if l[k].refCount <= 1 then Deleted else NeverReturns)
    case None => DelOutcome(s, Absent)
  }

  lemma DelPreservesWf(s: Store, id: u32)
    requires Wf(s)
    ensures Wf(DelRule(s, id).store)
    ensures Size(DelRule(s, id).store) == Size(s) - (if HasId(s, id) then 1 else 0)
  {
    match LocateId(s, id)
    case Some((t, k)) =>
    case None =>
  }

  /**
   Once an entry has matched, deleting it never completes: the match raised
   its count above the store's own reference and nothing lowers it again.
   */
  lemma {:induction false} DeleteAfterMatchNeverReturns(s: Store, t: u32, target: string, k: int)
    requires Wf(s) && IsCategory(t) && MatchDefined(s, t, target)
    requires IsFirstExact(Bucket(s, t), t, target, k)
    requires FirstWithId(s, Bucket(s, t)[k].rule.ruleId, t, k)
    ensures DelRule(MatchRule(s, t, target).store, Bucket(s, t)[k].rule.ruleId).status.NeverReturns?
  {
    var m := MatchRule(s, t, target);
    var id := Bucket(s, t)[k].rule.ruleId;
    assert BumpedAt(s, m.store, t, k);
    forall u: u32 | IsCategory(u) && u < t
      ensures !HasIdIn(Bucket(m.store, u), id)
    {
      assert Bucket(m.store, u) == Bucket(s, u);
    }
    assert FirstWithId(m.store, id, t, k);
  }

  // ---------------------------------------------------------------- add / get round trip

  /** A rule added with id 0 is found again under the id it was given. */
  lemma {:induction false} AddThenGet(s: Store, rule: Rule)
    requires rule.ruleId == 0 && IsCategory(rule.ruleType)
    requires !HasId(s, NextId(s.counter))
    ensures GetRule(AddRule(s, rule).store, NextId(s.counter)) == Some(rule.(ruleId := NextId(s.counter)))
  {
    var a := AddRule(s, rule);
    var id := NextId(s.counter);
    var t := rule.ruleType;
    var k := |Bucket(s, t)|;
    assert Bucket(a.store, t)[k] == Entry(a.rule, 1);
    forall j | 0 <= j < k
      ensures Bucket(a.store, t)[j].rule.ruleId != id
    {
      assert Bucket(a.store, t)[j] == Bucket(s, t)[j];
      assert !HasIdIn(Bucket(s, t), id);
    }
    forall u: u32 | IsCategory(u) && u < t
      ensures !HasIdIn(Bucket(a.store, u), id)
    {
      assert Bucket(a.store, u) == Bucket(s, u);
    }
    assert FirstWithId(a.store, id, t, k);
  }

  /**
   The status code of `hips_del_rule` when the call returns: success after
   unlinking the entry, or not found.
   */
  function DelCode(s: Store, id: u32): (code: int)
    requires !DelRule(s, id).status.NeverReturns?
    ensures code == SUCCESS <==> HasId(s, id)
    ensures code == ERROR_NOT_FOUND <==> !HasId(s, id)
  {
    if DelRule(s, id).status.Deleted? then SUCCESS else ERROR_NOT_FOUND
  }

  // ---------------------------------------------------------------- cleanup and reload

  /**
   `hips_cleanup_rules`: every list is emptied without looking at reference
   counts. The id counter is a separate static and is left alone.
   */
  function CleanupRules(s: Store): (r: Store)
    ensures Size(r) == 0 && r.counter == s.counter
    ensures forall id :: !HasId(r, id)
  {
    Store([], [], [], s.counter)
  }

  /** The strictly positive errno values a failed read reports. */
  type Errno = n: nat | n > 0 witness 1

  /** What reading the configuration file gives `hips_load_config`. */
  datatype ConfigRead = OpenFailed | ReadFailed(errno: Errno) | Read(data: string)

  /** `hips_parse_config`: a stub that accepts any data and adds no rules. */
  function ParseConfig(s: Store, data: string): (r: (Store, int))
    ensures r.0 == s && r.1 == SUCCESS
  {
    (s, SUCCESS)
  }

  /** `hips_load_config` once the file has been read. */
  function LoadConfig(s: Store, file: ConfigRead): (r: (Store, int))
    ensures r.0 == s
    ensures r.1 == SUCCESS <==> file.Read?
    ensures file.OpenFailed? ==> r.1 == ERROR_INVALID
    ensures file.ReadFailed? ==> r.1 == -(file.errno as int)
  {
    match file
    case OpenFailed => (s, ERROR_INVALID)
    case ReadFailed(e) => (s, -(e as int))
    case Read(data) => ParseConfig(s, data)
  }

  /**
   `hips_reload_config`: clear, then load. Whatever the load reports, the
   store ends up empty, and the id counter keeps counting from where it was,
   so ids handed out before the reload are not handed out again.
   */
  function ReloadConfig(s: Store, file: ConfigRead): (r: (Store, int))
    ensures Size(r.0) == 0 && r.0.counter == s.counter
    ensures r.1 == SUCCESS <==> file.Read?
    ensures r.1 <= SUCCESS
  {
    LoadConfig(CleanupRules(s), file)
  }
}
